=== FILE: README.md ===
# JSON Schema `$ref` inlining, modelled in Dafny

The forms application keeps its JSON Schemas as separate `*.schema.json` files
that point at each other with `"$ref": "./other.schema.json"`. Two resolvers
replace those references by the referenced content:

- the build step `bin/resolve-schema-refs.cjs` (`resolveRefs` and the loop
  that runs it over every catalog file). It inlines any relative reference
  whose file is present and truthy in the catalog. It drops the target's
  top-level `$schema`, resolves the inlined content recursively, and merges
  positionally with `Object.assign`. Members written after `$ref` override
  the inlined members, and members written before it are overridden by them.
  `title` and `description` are copied without being walked.
- the load-time helper `src/utils/schemaResolver.ts`
  (`resolveSchemaReferences`). It knows only `./person.schema.json`. It
  builds `{...personSchema, ...siblings}`, where siblings always win and
  nothing inside is resolved further. It keeps the person schema's
  `$schema`. It returns a node with any other truthy `$ref` unchanged.

The project has five modules:

- `Json` (Json.dfy): parsed JSON values, and the JavaScript object operations
  both resolvers use: property read and write, `Object.assign` and spread,
  rest destructuring, truthiness. Objects are insertion-ordered member lists,
  so the order in which keys are written, and hence which value wins, is
  explicit.
- `ResolveSchemaRefs` (ResolveSchemaRefs.dfy): the build-time resolver, the
  batch run over the catalog, and its properties:
  - how a reference node merges;
  - no `$schema` in inlined content;
  - nothing left to inline;
  - idempotence;
  - documents without references are unchanged.
- `SchemaResolver` (SchemaResolver.dfy): the load-time resolver, with the
  imported person schema as the parameter `person`, and its properties.
- `Agreement` (Agreement.dfy): the class of documents on which the two
  resolvers agree, proved for all such documents, and two general lemmas
  showing where they differ.
- `Examples` (Examples.dfy): the person/cheese catalog, worked end to end
  through both resolvers.

The build-time resolver has no cycle check. When files inline each other in a
cycle, the recursion exhausts the call stack: Node throws a `RangeError`, the
batch loop stops, and the files after the failing one are never written. The
model instead takes a ghost rank on catalog files (`WellRanked`). Every file
that a file's inlined content would inline ranks strictly below that file.
Inlined content is the file without its top-level `$schema`
(bin/resolve-schema-refs.cjs:42), so a `$schema` member that refers to its
own file needs no rank above it. The recursion decreases on this rank. It is
a precondition of the model, not something the source checks. The batch run
resolves each whole file at a bound above every rank (`Top`), because a
file's own top-level `$schema` member is walked when the file is written.
The rank and the bound only justify termination: any two that admit a
document give the same result (`ResolveSchemaRefs.RankIrrelevant`), so the
model, like the source, depends on the document and the catalog alone.

The source's comments and what its code does:

- **Sibling precedence.** The comment at bin/resolve-schema-refs.cjs:44 says
  "then any sibling properties will override", and the one at lines 50-51
  says siblings "should override the referenced schema's title/description".
  The code merges positionally, so this holds only for siblings written
  after `$ref`. A sibling written before `$ref` is overwritten by the
  target's member of the same name (`ResolveSchemaRefs.RefNodeMerge`,
  `Agreement.EarlierSiblingDiverges`). The load-time resolver spreads the
  siblings last, so there they always win.
- **Missing references.** Lines 35-38 only print a warning when the file is
  not in the catalog or its schema is falsy, such as the boolean schema
  `false`. The `$ref` member is kept and the file is written anyway
  (`ResolveSchemaRefs.MissingRefKept`, `Examples.FalseTargetKept`).
- **Other references at load time.** The comment at
  src/utils/schemaResolver.ts:37 says "For other refs, return as-is". The
  whole node is returned unchanged, siblings unresolved
  (`SchemaResolver.OtherRefUntouched`). For the person reference the
  load-time resolver also keeps the person schema's `$schema` and resolves
  nothing inside the inlined content or the siblings
  (`SchemaResolver.PersonRefMerge`, `SchemaResolver.PersonSchemaKept`).

## Model

| member | source | states |
|---|---|---|
| ResolveSchemaRefs.Resolve | bin/resolve-schema-refs.cjs:19-59 | no contract; characterised by `ResolveScalar`, `ResolveArray`, `ResolvePlainObject`, `RefNodeMerge`, `MissingRefKept`, `ResolveIsFlat`, `ResolveWellFormed`, `FlatUnchanged`, `NoRefUnchanged`, `Idempotent` |
| ResolveSchemaRefs.ResolveItems | bin/resolve-schema-refs.cjs:24-26 | no contract; characterised by `ResolveArray` |
| ResolveSchemaRefs.Walk | bin/resolve-schema-refs.cjs:28-58 | no contract; characterised by `ResolvePlainObject`, `RefNodeMerge`, `MissingRefKept`, `WalkNoSchema`, `Agreement.WalkAfterPersonRef` |
| ResolveSchemaRefs.Contribution | bin/resolve-schema-refs.cjs:28-58 | no contract; characterised by `ResolvePlainObject`, `RefNodeMerge`, `MissingRefKept` |
| ResolveSchemaRefs.MemberValue | bin/resolve-schema-refs.cjs:28-58 | no contract; characterised by `ResolvePlainObject`, `MissingRefKept` |
| ResolveSchemaRefs.Inlined | bin/resolve-schema-refs.cjs:41-45 | no contract; characterised by `InlinedNoSchema`, `ContentTargets`, `Agreement.InlinedPlainPerson` |
| ResolveSchemaRefs.WholeDocumentRanking | bin/resolve-schema-refs.cjs:41-45 | a rank under which every whole file's targets rank below it also ranks the inlined content, which leaves out the top-level `$schema` |
| ResolveSchemaRefs.BelowTop | bin/resolve-schema-refs.cjs:62-71 | every catalog file ranks below the bound the batch run resolves whole files at |
| SchemaResolver.Resolve | src/utils/schemaResolver.ts:14-48 | no contract; characterised by `ResolveScalar`, `ResolveArray`, `PersonRefMerge`, `PersonSchemaKept`, `OtherRefUntouched`, `PlainObject`, `NoTruthyRefUnchanged`, `NoRefUnchanged` |
| SchemaResolver.ResolveItems | src/utils/schemaResolver.ts:20-22 | no contract; characterised by `ResolveArray` |
| SchemaResolver.Copy | src/utils/schemaResolver.ts:41-47 | no contract; characterised by `PlainObject` |
| Json.Put | bin/resolve-schema-refs.cjs:52-54 | no contract; characterised by `PutLookup`, `PutKeys`, `PutFresh` |
| Json.Assign | bin/resolve-schema-refs.cjs:45 | no contract; characterised by `AssignLookup`, `AssignKeys`, `AssignFresh`, `AssignConcat`; also models src/utils/schemaResolver.ts:28 and 32-35 |
| Json.Remove | bin/resolve-schema-refs.cjs:42 | no contract; characterised by `RemoveLookup`, `RemoveKeys`, `RemoveHead`; also models src/utils/schemaResolver.ts:31 |
| Json.Spread | bin/resolve-schema-refs.cjs:42 | no contract; characterised by `NatToStringInjective`, `SpreadWellFormed`; also models src/utils/schemaResolver.ts:28 |
| Json.Truthy | bin/resolve-schema-refs.cjs:35 | no contract; characterised by `MissingRefKept` and `SchemaResolver.OtherRefUntouched`; also models src/utils/schemaResolver.ts:25 |
| Json.PutLookup | bin/resolve-schema-refs.cjs:52-54 | after `resolved[k] = v`, reading `k` gives `v` and every other key reads as before |
| Json.PutKeys | bin/resolve-schema-refs.cjs:52-54 | a property write adds exactly its key to the object's key set |
| Json.PutFresh | src/utils/schemaResolver.ts:42-45 | writing a new key appends it at the end, so a copy loop over distinct keys keeps their order |
| Json.AssignLookup | bin/resolve-schema-refs.cjs:45 | after `Object.assign(acc, src)` a key of `src` reads as in `src`; any other key reads as in `acc` |
| Json.AssignKeys | bin/resolve-schema-refs.cjs:45 | `Object.assign` leaves the union of both key sets |
| Json.AssignFresh | src/utils/schemaResolver.ts:28 | spreading into an empty object copies the members unchanged and in order |
| Json.AssignConcat | bin/resolve-schema-refs.cjs:29-56 | assigning two member lists in turn equals assigning their concatenation |
| Json.RemoveLookup | bin/resolve-schema-refs.cjs:42 | the rest object of `{ $schema, ...rest }` has no `$schema` and every other key unchanged |
| Json.RemoveKeys | src/utils/schemaResolver.ts:31 | the rest object of `{ $ref, ...rest }` has exactly the original keys minus `$ref` |
| Json.RemoveHead | src/utils/schemaResolver.ts:31 | removing the first key of a unique-key object drops exactly that member |
| Json.NatToStringInjective | bin/resolve-schema-refs.cjs:42 | different array indices give different property names when a non-object target is spread |
| Json.SpreadWellFormed | bin/resolve-schema-refs.cjs:42 | spreading a well-formed value gives members with distinct keys and well-formed values |
| ResolveSchemaRefs.ResolveScalar | bin/resolve-schema-refs.cjs:20-22 | a string, number, boolean or null resolves to itself |
| ResolveSchemaRefs.ResolveArray | bin/resolve-schema-refs.cjs:24-26 | an array resolves item by item, keeping its length and order |
| ResolveSchemaRefs.ResolvePlainObject | bin/resolve-schema-refs.cjs:49-55 | with nothing inlined, an object keeps its key order; `title`/`description` and relative `$ref` values are kept; every other value is resolved |
| ResolveSchemaRefs.MissingRefKept | bin/resolve-schema-refs.cjs:35-39 | a relative `$ref` whose file is missing or falsy stays in place with its value, and the other members are handled as usual |
| ResolveSchemaRefs.RefNodeMerge | bin/resolve-schema-refs.cjs:28-48 | merging a node with an inlined file: members after `$ref` win; target keys win over members before `$ref`; key set is (node keys minus `$ref`) plus target keys; `$ref` survives only from the target; `$schema` only from the node |
| ResolveSchemaRefs.InlinedNoSchema | bin/resolve-schema-refs.cjs:41-45 | resolved inlined content never has a top-level `$schema` key |
| ResolveSchemaRefs.WalkNoSchema | bin/resolve-schema-refs.cjs:28-58 | resolving an object without `$schema` never adds one, even when it inlines files |
| ResolveSchemaRefs.ContentTargets | bin/resolve-schema-refs.cjs:42-45 | resolving the inlined content looks up no file that resolving the whole target document would not |
| ResolveSchemaRefs.ResolveIsFlat | bin/resolve-schema-refs.cjs:19-59 | the result has no relative `$ref`, outside `title`/`description`, that names a present, truthy catalog file |
| ResolveSchemaRefs.ResolveWellFormed | bin/resolve-schema-refs.cjs:19-59 | with a well-formed input and catalog, every object in the result has unique keys |
| ResolveSchemaRefs.FlatUnchanged | bin/resolve-schema-refs.cjs:19-59 | a document with nothing to inline resolves to itself |
| ResolveSchemaRefs.NoRefUnchanged | bin/resolve-schema-refs.cjs:19-59 | a document with no `$ref` key anywhere looks up no file and resolves to itself, whatever the well-ranked catalog holds |
| ResolveSchemaRefs.Idempotent | bin/resolve-schema-refs.cjs:19-59 | resolving twice gives the same as resolving once, and the result has nothing left to inline |
| ResolveSchemaRefs.ResolveAll | bin/resolve-schema-refs.cjs:62-71 | the batch run produces exactly one output per catalog file |
| ResolveSchemaRefs.RankIrrelevant | bin/resolve-schema-refs.cjs:19-59 | the resolved document depends only on the document and the catalog: any two ranks and bounds that admit it give the same result |
| ResolveSchemaRefs.ResolveAllRankIrrelevant | bin/resolve-schema-refs.cjs:62-71 | the batch output is the same under every rank that admits the catalog |
| ResolveSchemaRefs.ResolveAllFlat | bin/resolve-schema-refs.cjs:62-71 | no written file has anything left to inline |
| ResolveSchemaRefs.ResolveAllKeepsFlat | bin/resolve-schema-refs.cjs:62-71 | a catalog file with nothing to inline is written out unchanged |
| SchemaResolver.ResolveScalar | src/utils/schemaResolver.ts:15-17 | a non-object resolves to itself |
| SchemaResolver.ResolveArray | src/utils/schemaResolver.ts:20-22 | an array resolves item by item, keeping its length and order |
| SchemaResolver.PersonRefMerge | src/utils/schemaResolver.ts:26-35 | a person reference yields unique keys: person keys plus siblings minus `$ref`; siblings keep their unresolved values wherever they stood; other keys take the person schema's unresolved value |
| SchemaResolver.PersonSchemaKept | src/utils/schemaResolver.ts:28-35 | the person schema's `$schema` survives unless a sibling shadows it |
| SchemaResolver.OtherRefUntouched | src/utils/schemaResolver.ts:37-38 | a node with any other truthy `$ref` is returned as it is, siblings unresolved |
| SchemaResolver.PlainObject | src/utils/schemaResolver.ts:41-47 | an object without a truthy `$ref` keeps its key order with every value resolved |
| SchemaResolver.NoTruthyRefUnchanged | src/utils/schemaResolver.ts:14-48 | a document with no truthy `$ref` anywhere resolves to itself |
| SchemaResolver.NoRefUnchanged | src/utils/schemaResolver.ts:14-48 | a document with no `$ref` key anywhere resolves to itself |
| Agreement.ResolversAgree | src/utils/schemaResolver.ts:14-48 | where every reference is the person reference written first, with reference-free siblings and annotations, and the person schema has no `$schema` or `$ref`, both resolvers give the same document |
| Agreement.WalkAfterPersonRef | bin/resolve-schema-refs.cjs:29-56 | after an inlined person reference at position 0, later reference-free siblings are written over the person schema's members unresolved |
| Agreement.InlinedPlainPerson | bin/resolve-schema-refs.cjs:41-45 | a person schema with no `$schema` and no `$ref` is inlined as its own members, in order |
| Agreement.EarlierSiblingDiverges | bin/resolve-schema-refs.cjs:44-45 | for a sibling before the person reference that the person schema also defines, the build result takes the person value and the load-time result the sibling's; they differ when those values do |
| Agreement.SchemaKeyDiverges | src/utils/schemaResolver.ts:28-35 | if the person schema declares `$schema` and the node does not, only the load-time result contains `$schema`, so the results differ |
| Examples.BuildPerson | bin/resolve-schema-refs.cjs:62-71 | the batch run writes the reference-free person schema unchanged |
| Examples.BuildCheese | bin/resolve-schema-refs.cjs:62-71 | the batch run writes the cheese schema with the person schema inlined under `reviewer`, followed by the reviewer's description |
| Examples.RuntimeCheese | src/utils/schemaResolver.ts:14-48 | the load-time resolver turns the cheese schema into the same document |
| Examples.SelfSchemaResolves | bin/resolve-schema-refs.cjs:41-45 | a file whose top-level `$schema` refers to itself has a rank, and the batch run writes it with that member resolved to the file's empty content |
| Examples.PersonSchemaDiverges | src/utils/schemaResolver.ts:28-35 | for a person schema `{"$schema": "x"}` and the node `{"$ref": "./person.schema.json"}`, the build result is `{}` and the load-time result is the person schema, so they differ |
| Examples.FalseTargetKept | bin/resolve-schema-refs.cjs:35-38 | a reference to a catalog file whose schema is `false` is not inlined: the node comes back as it was and counts as having nothing left to inline |
| Examples.RetypedDiverges | bin/resolve-schema-refs.cjs:44-45 | in a node whose `type` precedes the person reference, `type` comes out as the person's `object` at build time and as the sibling's `array` at load time |

## Left out

- Reading the schema directory, `JSON.parse`, writing and pretty-printing the
  output files, and the console messages are left out. The catalog is a map
  from file name to parsed value, and the batch result is a map from file
  name to resolved value.
- The `.schema.json` file-name filter is left out: the catalog already holds
  only the files that pass it.
- The stack overflow on a catalog whose files inline each other in a cycle
  is left out, and so is the batch loop stopping at that file. The build
  resolver requires a ghost rank (`WellRanked`, `Below`) instead, and says
  nothing about cyclic catalogs.
- JavaScript's ordering of integer-like property names ahead of other keys
  is left out. Member order is plain insertion order.
- Prototype-chain behaviour is left out: a `__proto__` key, and inherited
  properties seen by `schemas[refFile]`. Catalog lookup is plain map
  membership.
- Numbers are integers. Floating point, `NaN` and `-0` do not arise, so
  truthiness of numbers is `n != 0`.
- Spreading a string target is modelled per character, not per UTF-16 code
  unit.
- The imported person schema of the load-time resolver is a parameter, not
  the file on disk.
- The rest of the application (forms, registry, the schema validation
  script) is not part of this model.
- Error reporting for missing references is left out. The code only warns
  and keeps the `$ref` member (`ResolveSchemaRefs.MissingRefKept`). No
  failure status is modelled, because the code has none.

=== FILE: Agreement.dfy ===
/**
  How the build-time resolver (`bin/resolve-schema-refs.cjs`) and the
  load-time resolver (`src/utils/schemaResolver.ts`) relate.

  They agree on documents whose only references are `./person.schema.json`
  placed first in their node, with siblings free of references, provided the
  person schema itself declares no `$schema` and refers to nothing. Outside
  that class they differ: a sibling before `$ref` loses to the person schema
  at build time but wins at load time, and the person schema's `$schema` is
  dropped at build time but kept at load time.
 */
module Agreement {
  import opened Json
  import Build = ResolveSchemaRefs
  import Runtime = SchemaResolver

  /** The catalog file name the load-time resolver's one reference names. */
  const PersonFile: string := "person.schema.json"

  /** A person schema both resolvers inline the same way. */
  predicate PlainPerson(person: Json)
  {
    && person.JObj?
    && WellFormed(person)
    && "$schema" !in Keys(person.entries)
    && !HasKey(person, "$ref")
  }

  /**
    Every reference is `./person.schema.json` and comes first in its node,
    siblings of a reference contain no `$ref`, and neither does any `title` or
    `description` value.
   */
  predicate PersonOnly(v: Json)
  {
    match v
    case JArr(items) => forall i :: 0 <= i < |items| ==> PersonOnly(items[i])
    case JObj(members) =>
      if "$ref" in Keys(members) then
        && |members| > 0
        && members[0] == ("$ref", JStr(Runtime.PersonRef))
        && forall i :: 1 <= i < |members| ==> !HasKey(members[i].1, "$ref")
      else
        forall i :: 0 <= i < |members| ==>
          && PersonOnly(members[i].1)
          && (Build.IsAnnotation(members[i].0) ==> !HasKey(members[i].1, "$ref"))
    case _ => true
  }

  lemma PersonRefFile()
    ensures Build.RefFile(JStr(Runtime.PersonRef)) == Some(PersonFile)
  {
    assert Runtime.PersonRef[..2] == "./";
    assert Runtime.PersonRef[2..] == PersonFile;
  }

  /** At build time the person schema contributes its own members, in order. */
  lemma InlinedPlainPerson(cat: Build.Catalog, rank: map<string, nat>, person: Json)
    requires Build.WellRanked(cat, rank) && PersonFile in cat && cat[PersonFile] == person
    requires PlainPerson(person)
    ensures Build.Found(cat, PersonFile)
    ensures Build.Inlined(PersonFile, cat, rank) == person.entries
  {
    RemoveAbsent(person.entries, "$schema");
    assert JObj(Build.Content(person)) == person;
    Build.NoRefNoTargets(person);
    Build.WalkFlatUnchanged(person, |person.entries|, cat, rank, rank[PersonFile]);
    assert person.entries[..|person.entries|] == person.entries;
  }

  /** After `$ref` at position 0, the build-time walk writes the unresolved siblings over the person schema. */
  lemma {:induction false} WalkAfterPersonRef(v: Json, i: nat, cat: Build.Catalog, rank: map<string, nat>, bound: nat, person: Json)
    requires Build.WellRanked(cat, rank) && Build.Below(Build.Targets(v), cat, rank, bound)
    requires PersonFile in cat && cat[PersonFile] == person && PlainPerson(person)
    requires v.JObj? && WellFormed(v) && 1 <= i <= |v.entries|
    requires v.entries[0] == ("$ref", JStr(Runtime.PersonRef))
    requires forall j :: 1 <= j < |v.entries| ==> !HasKey(v.entries[j].1, "$ref")
    ensures Build.Walk(v, i, cat, rank, bound) == Assign(person.entries, v.entries[1..i])
    decreases i
  {
    PersonRefHead(v, cat, rank, bound, person);
    SiblingsKept(v, i, cat, rank, bound);
  }

  /** After the first member, reference-free siblings are written over the walk's first step as they stand. */
  lemma {:induction false} SiblingsKept(v: Json, i: nat, cat: Build.Catalog, rank: map<string, nat>, bound: nat)
    requires Build.WellRanked(cat, rank) && Build.Below(Build.Targets(v), cat, rank, bound)
    requires v.JObj? && WellFormed(v) && 1 <= i <= |v.entries| && v.entries[0].0 == "$ref"
    requires forall j :: 1 <= j < |v.entries| ==> !HasKey(v.entries[j].1, "$ref")
    ensures Build.Walk(v, i, cat, rank, bound) == Assign(Build.Walk(v, 1, cat, rank, bound), v.entries[1..i])
    decreases i
  {
    var es := v.entries;
    if i == 1 {
      assert es[1..1] == [];
    } else {
      SiblingsKept(v, i - 1, cat, rank, bound);
      PersonSiblingKept(v, i - 1, cat, rank, bound);
      AssignConcat(Build.Walk(v, 1, cat, rank, bound), es[1..i - 1], [es[i - 1]]);
      assert es[1..i] == es[1..i - 1] + [es[i - 1]];
    }
  }

  /** The walk's first step inlines the person schema's own members. */
  lemma PersonRefHead(v: Json, cat: Build.Catalog, rank: map<string, nat>, bound: nat, person: Json)
    requires Build.WellRanked(cat, rank) && Build.Below(Build.Targets(v), cat, rank, bound)
    requires PersonFile in cat && cat[PersonFile] == person && PlainPerson(person)
    requires v.JObj? && |v.entries| > 0 && v.entries[0] == ("$ref", JStr(Runtime.PersonRef))
    ensures Build.Walk(v, 1, cat, rank, bound) == person.entries
  {
    PersonRefFile();
    InlinedPlainPerson(cat, rank, person);
    assert Build.Inlines(v, 0, cat);
    assert Build.Contribution(v, 0, cat, rank, bound) == person.entries;
    AssignFresh([], person.entries);
  }

  /** A reference-free sibling after a leading `$ref` is written as it stands. */
  lemma PersonSiblingKept(v: Json, j: nat, cat: Build.Catalog, rank: map<string, nat>, bound: nat)
    requires Build.WellRanked(cat, rank) && Build.Below(Build.Targets(v), cat, rank, bound)
    requires v.JObj? && WellFormed(v) && 1 <= j < |v.entries| && v.entries[0].0 == "$ref"
    requires !HasKey(v.entries[j].1, "$ref")
    ensures Build.Contribution(v, j, cat, rank, bound) == [v.entries[j]]
  {
    var es := v.entries;
    var (k, x) := es[j];
    Build.KeysAround(es, 0);
    assert es[j] in es[1..];
    assert k != "$ref";
    assert !Build.Inlines(v, j, cat);
    if !Build.IsAnnotation(k) {
      Build.NoRefUnchanged(x, cat, rank, bound);
    }
    assert Build.MemberValue(v, j, cat, rank, bound) == x;
  }

  /**
    On documents whose references all name the person schema and satisfy
    `PersonOnly`, the build-time resolver (with the person schema in its
    catalog) and the load-time resolver produce the same document.
   */
  lemma {:induction false} ResolversAgree(v: Json, cat: Build.Catalog, rank: map<string, nat>, bound: nat, person: Json)
    requires Build.WellRanked(cat, rank) && Build.Below(Build.Targets(v), cat, rank, bound)
    requires PersonFile in cat && cat[PersonFile] == person && PlainPerson(person)
    requires WellFormed(v) && PersonOnly(v)
    ensures Build.Resolve(v, cat, rank, bound) == Runtime.Resolve(v, person)
    decreases v
  {
    match v
    case JArr(items) =>
      Build.ResolveArray(v, cat, rank, bound);
      Runtime.ResolveArray(v, person);
      forall j | 0 <= j < |items|
        ensures Build.Resolve(v, cat, rank, bound).items[j] == Runtime.Resolve(v, person).items[j]
      {
        ResolversAgree(items[j], cat, rank, bound, person);
      }
    case JObj(es) =>
      if "$ref" in Keys(es) {
        PersonRefNodeAgree(v, cat, rank, bound, person);
      } else {
        LookupAbsent(es, "$ref");
        forall j | 0 <= j < |es| ensures !Build.Inlines(v, j, cat) {
          assert es[j].0 in Keys(es);
        }
        Build.ResolvePlainObject(v, cat, rank, bound);
        Runtime.PlainObject(v, person);
        forall j | 0 <= j < |es|
          ensures Build.MemberValue(v, j, cat, rank, bound) == Runtime.Resolve(es[j].1, person)
        {
          assert es[j].0 in Keys(es);
          if Build.IsAnnotation(es[j].0) {
            Runtime.NoRefUnchanged(es[j].1, person);
          } else {
            Build.MemberTargetsIncluded(v, |es|, j);
            ResolversAgree(es[j].1, cat, rank, bound, person);
          }
        }
      }
    case _ =>
  }

  /** A node whose first member is the person reference and whose siblings hold no `$ref`. */
  lemma PersonRefNodeAgree(v: Json, cat: Build.Catalog, rank: map<string, nat>, bound: nat, person: Json)
    requires Build.WellRanked(cat, rank) && Build.Below(Build.Targets(v), cat, rank, bound)
    requires PersonFile in cat && cat[PersonFile] == person && PlainPerson(person)
    requires v.JObj? && WellFormed(v) && |v.entries| > 0
    requires v.entries[0] == ("$ref", JStr(Runtime.PersonRef))
    requires forall j :: 1 <= j < |v.entries| ==> !HasKey(v.entries[j].1, "$ref")
    ensures Build.Resolve(v, cat, rank, bound) == Runtime.Resolve(v, person)
  {
    var es := v.entries;
    WalkAfterPersonRef(v, |es|, cat, rank, bound, person);
    assert es[1..|es|] == es[1..];
    RuntimePersonRefNode(v, person);
  }

  /** At load time, a node led by the person reference is the person schema's members with the rest written over them. */
  lemma RuntimePersonRefNode(v: Json, person: Json)
    requires v.JObj? && UniqueKeys(v.entries) && |v.entries| > 0
    requires v.entries[0] == ("$ref", JStr(Runtime.PersonRef))
    requires person.JObj? && UniqueKeys(person.entries)
    ensures Runtime.Resolve(v, person) == JObj(Assign(person.entries, v.entries[1..]))
  {
    var es := v.entries;
    LookupAt(es, 0);
    assert Runtime.HasTruthyRef(es);
    RemoveHead(es);
    AssignFresh([], person.entries);
    assert [] + person.entries == person.entries;
  }

  /**
    A sibling placed before `"$ref": "./person.schema.json"` whose key the
    person schema also has: at build time the person schema's value wins, at
    load time the sibling's, so the two results differ whenever the values do.
   */
  lemma EarlierSiblingDiverges(v: Json, p: nat, j: nat, cat: Build.Catalog, rank: map<string, nat>, bound: nat, person: Json)
    requires Build.WellRanked(cat, rank) && Build.Below(Build.Targets(v), cat, rank, bound)
    requires PersonFile in cat && cat[PersonFile] == person && PlainPerson(person)
    requires v.JObj? && UniqueKeys(v.entries) && j < p < |v.entries|
    requires v.entries[p] == ("$ref", JStr(Runtime.PersonRef))
    requires Lookup(person.entries, v.entries[j].0).Some?
    ensures Build.Resolve(v, cat, rank, bound).JObj? && Runtime.Resolve(v, person).JObj?
    ensures Lookup(Build.Resolve(v, cat, rank, bound).entries, v.entries[j].0) == Lookup(person.entries, v.entries[j].0)
    ensures Lookup(Runtime.Resolve(v, person).entries, v.entries[j].0) == Some(v.entries[j].1)
    ensures Lookup(person.entries, v.entries[j].0) != Some(v.entries[j].1) ==>
      Build.Resolve(v, cat, rank, bound) != Runtime.Resolve(v, person)
  {
    var es := v.entries;
    var k := es[j].0;
    PersonRefFile();
    InlinedPlainPerson(cat, rank, person);
    assert Build.Inlines(v, p, cat);
    LookupAbsent(person.entries, k);
    UniqueElsewhere(es, j, p + 1, |es|);
    assert es[p + 1..|es|] == es[p + 1..];
    Build.RefNodeMerge(v, p, cat, rank, bound);
    LookupAt(es, p);
    LookupAt(es, j);
    assert k in Keys(es) && k != "$ref";
    Runtime.PersonRefMerge(v, person);
  }

  /**
    When the person schema declares `$schema` and the referring node does not:
    the build-time result has no `$schema`, the load-time result has the
    person schema's, so the two differ.
   */
  lemma SchemaKeyDiverges(v: Json, p: nat, cat: Build.Catalog, rank: map<string, nat>, bound: nat, person: Json)
    requires Build.WellRanked(cat, rank) && Build.Below(Build.Targets(v), cat, rank, bound)
    requires PersonFile in cat && cat[PersonFile] == person
    requires person.JObj? && WellFormed(person) && "$schema" in Keys(person.entries)
    requires v.JObj? && UniqueKeys(v.entries) && p < |v.entries|
    requires v.entries[p] == ("$ref", JStr(Runtime.PersonRef))
    requires "$schema" !in Keys(v.entries)
    ensures Build.Resolve(v, cat, rank, bound).JObj? && Runtime.Resolve(v, person).JObj?
    ensures "$schema" !in Keys(Build.Resolve(v, cat, rank, bound).entries)
    ensures "$schema" in Keys(Runtime.Resolve(v, person).entries)
    ensures Build.Resolve(v, cat, rank, bound) != Runtime.Resolve(v, person)
  {
    PersonRefFile();
    assert Build.Inlines(v, p, cat);
    Build.RefNodeMerge(v, p, cat, rank, bound);
    LookupAt(v.entries, p);
    Runtime.PersonRefMerge(v, person);
  }
}

=== FILE: Examples.dfy ===
/**
  A two-file catalog, a person schema and a cheese schema whose `reviewer`
  property refers to it, worked through both resolvers.
 */
module Examples {
  import opened Json
  import Build = ResolveSchemaRefs
  import Runtime = SchemaResolver
  import Agreement

  const NameSchema: Json := JObj([("type", JStr("string"))])
  const PersonProperties: Json := JObj([("name", NameSchema)])
  const PersonRequired: Json := JArr([JStr("name")])

  const Person: Json := JObj([
    ("type", JStr("object")),
    ("properties", PersonProperties),
    ("required", PersonRequired)
  ])

  const Description: Json := JStr("The reviewer")
  const Reviewer: Json := JObj([("$ref", JStr(Runtime.PersonRef)), ("description", Description)])
  const CheeseProperties: Json := JObj([("reviewer", Reviewer)])

  const Cheese: Json := JObj([("type", JStr("object")), ("properties", CheeseProperties)])

  /** The reviewer with the person schema inlined, its description last. */
  const ResolvedReviewer: Json := JObj([
    ("type", JStr("object")),
    ("properties", PersonProperties),
    ("required", PersonRequired),
    ("description", Description)
  ])

  /** The cheese schema with the person schema inlined under `reviewer`. */
  const ResolvedCheese: Json := JObj([
    ("type", JStr("object")),
    ("properties", JObj([("reviewer", ResolvedReviewer)]))
  ])

  const CheeseFile: string := "cheese.schema.json"

  const Catalog: Build.Catalog := map[Agreement.PersonFile := Person, CheeseFile := Cheese]

  const Rank: map<string, nat> := map[Agreement.PersonFile := 0, CheeseFile := 1]

  lemma PersonPropertiesPlain()
    ensures !HasKey(PersonProperties, "$ref") && WellFormed(PersonProperties)
  {
    assert !HasKey(NameSchema, "$ref");
  }

  lemma PersonIsPlain()
    ensures Agreement.PlainPerson(Person)
  {
    PersonPropertiesPlain();
    assert !HasKey(PersonRequired, "$ref");
  }

  lemma ReviewerTargets()
    ensures Build.Targets(Reviewer) == {Agreement.PersonFile}
    ensures Build.Targets(CheeseProperties) == {Agreement.PersonFile}
    ensures Build.Targets(Cheese) == {Agreement.PersonFile}
  {
    Agreement.PersonRefFile();
    assert Build.MembersTargets(Reviewer, 1) == {Agreement.PersonFile};
    assert Build.MemberTargets("description", Description) == {};
    assert Build.Targets(Reviewer) == Build.MembersTargets(Reviewer, 2);
    assert Build.Targets(CheeseProperties) == Build.MembersTargets(CheeseProperties, 1);
    assert Build.MemberTargets("reviewer", Reviewer) == Build.Targets(Reviewer);
    assert Build.MembersTargets(CheeseProperties, 1) == Build.MemberTargets("reviewer", Reviewer);
    assert Build.MembersTargets(Cheese, 1) == {};
    assert Build.MemberTargets("properties", CheeseProperties) == Build.Targets(CheeseProperties);
    assert Build.MembersTargets(Cheese, 2) == Build.MemberTargets("properties", CheeseProperties);
    assert Build.Targets(Cheese) == Build.MembersTargets(Cheese, 2);
  }

  /** Neither file declares `$schema`, so each is inlined whole. */
  lemma CatalogContent()
    ensures JObj(Build.Content(Person)) == Person
    ensures JObj(Build.Content(Cheese)) == Cheese
  {
    PersonIsPlain();
    RemoveAbsent(Person.entries, "$schema");
    assert Cheese.entries[0].0 == "type" && Cheese.entries[1].0 == "properties";
    assert "$schema" !in Keys(Cheese.entries);
    RemoveAbsent(Cheese.entries, "$schema");
  }

  lemma CatalogRanked()
    ensures Build.WellRanked(Catalog, Rank)
  {
    PersonIsPlain();
    Build.NoRefNoTargets(Person);
    ReviewerTargets();
    CatalogContent();
  }

  /** The person schema refers to nothing, so it resolves to itself. */
  lemma BuildPerson()
    ensures Build.WellRanked(Catalog, Rank)
    ensures Build.ResolveAll(Catalog, Rank)[Agreement.PersonFile] == Person
  {
    CatalogRanked();
    PersonIsPlain();
    Build.NoRefUnchanged(Person, Catalog, Rank, Build.Top(Catalog, Rank));
  }

  lemma BuildReviewer(bound: nat)
    requires bound >= 1
    ensures Build.WellRanked(Catalog, Rank) && Build.Below(Build.Targets(Reviewer), Catalog, Rank, bound)
    ensures Build.Resolve(Reviewer, Catalog, Rank, bound) == ResolvedReviewer
  {
    CatalogRanked();
    PersonIsPlain();
    ReviewerTargets();
    var description := ("description", Description);
    assert WellFormed(Reviewer);
    assert !HasKey(Description, "$ref");
    Agreement.WalkAfterPersonRef(Reviewer, 2, Catalog, Rank, bound, Person);
    assert Reviewer.entries[1..2] == [description];
    AssignSingle(Person.entries, description);
    PutFresh(Person.entries, description.0, description.1);
  }

  lemma BuildProperties(bound: nat)
    requires bound >= 1
    ensures Build.WellRanked(Catalog, Rank) && Build.Below(Build.Targets(CheeseProperties), Catalog, Rank, bound)
    ensures Build.Resolve(CheeseProperties, Catalog, Rank, bound) == ResolvedCheese.entries[1].1
  {
    BuildReviewer(bound);
    ReviewerTargets();
    assert !Build.Inlines(CheeseProperties, 0, Catalog);
    Build.ResolvePlainObject(CheeseProperties, Catalog, Rank, bound);
    assert Build.MemberValue(CheeseProperties, 0, Catalog, Rank, bound) == Build.Resolve(Reviewer, Catalog, Rank, bound);
  }

  lemma BuildCheeseAt(bound: nat)
    requires bound >= 1
    ensures Build.WellRanked(Catalog, Rank) && Build.Below(Build.Targets(Cheese), Catalog, Rank, bound)
    ensures Build.Resolve(Cheese, Catalog, Rank, bound) == ResolvedCheese
  {
    BuildProperties(bound);
    ReviewerTargets();
    assert !Build.Inlines(Cheese, 0, Catalog) && !Build.Inlines(Cheese, 1, Catalog);
    Build.ResolvePlainObject(Cheese, Catalog, Rank, bound);
    assert Build.MemberValue(Cheese, 0, Catalog, Rank, bound) == JStr("object");
    assert Build.MemberValue(Cheese, 1, Catalog, Rank, bound) == Build.Resolve(CheeseProperties, Catalog, Rank, bound);
  }

  /** At build time the reviewer becomes the person schema followed by its description. */
  lemma BuildCheese()
    ensures Build.WellRanked(Catalog, Rank)
    ensures Build.ResolveAll(Catalog, Rank)[CheeseFile] == ResolvedCheese
  {
    CatalogRanked();
    var top := Build.Top(Catalog, Rank);
    assert Rank[CheeseFile] < top;
    BuildCheeseAt(top);
    assert Catalog[CheeseFile] == Cheese;
  }

  lemma ReviewerPersonOnly()
    ensures WellFormed(Reviewer) && Agreement.PersonOnly(Reviewer)
  {
    assert !HasKey(Description, "$ref");
    assert "$ref" in Keys(Reviewer.entries) by {
      assert Reviewer.entries[0].0 == "$ref";
    }
  }

  lemma CheesePersonOnly()
    ensures WellFormed(Cheese) && Agreement.PersonOnly(Cheese)
  {
    ReviewerPersonOnly();
    assert Agreement.PersonOnly(CheeseProperties) by {
      assert CheeseProperties.entries[0].0 == "reviewer";
      assert "$ref" !in Keys(CheeseProperties.entries);
    }
    assert WellFormed(CheeseProperties);
    assert Cheese.entries[0].0 == "type" && Cheese.entries[1].0 == "properties";
    assert "$ref" !in Keys(Cheese.entries);
    assert !Build.IsAnnotation("type") && !Build.IsAnnotation("properties");
    assert Agreement.PersonOnly(Cheese.entries[0].1) && Agreement.PersonOnly(Cheese.entries[1].1);
  }

  /** At load time the cheese schema resolves to the same document. */
  lemma RuntimeCheese()
    ensures Runtime.Resolve(Cheese, Person) == ResolvedCheese
  {
    PersonIsPlain();
    BuildCheeseAt(1);
    CheesePersonOnly();
    Agreement.ResolversAgree(Cheese, Catalog, Rank, 1, Person);
  }

  /** A `type` placed before the reference: the person schema's wins at build time, the sibling at load time. */
  const Retyped: Json := JObj([("type", JStr("array")), ("$ref", JStr(Runtime.PersonRef))])

  lemma RetypedDiverges()
    ensures Build.WellRanked(Catalog, Rank) && Build.Below(Build.Targets(Retyped), Catalog, Rank, 1)
    ensures Lookup(Build.Resolve(Retyped, Catalog, Rank, 1).entries, "type") == Some(JStr("object"))
    ensures Lookup(Runtime.Resolve(Retyped, Person).entries, "type") == Some(JStr("array"))
  {
    CatalogRanked();
    PersonIsPlain();
    Agreement.PersonRefFile();
    assert Build.MemberTargets("type", JStr("array")) == {};
    assert Build.MembersTargets(Retyped, 1) == {};
    assert Build.MembersTargets(Retyped, 2) == {Agreement.PersonFile};
    assert Build.Targets(Retyped) == {Agreement.PersonFile};
    Agreement.EarlierSiblingDiverges(Retyped, 1, 0, Catalog, Rank, 1, Person);
  }

  /**
    A file whose own top-level `$schema` refers back to it. Inlining the file
    drops that member, so the recursion stops after one step: the catalog has a
    rank, and the batch run writes the file with the reference replaced by the
    file's empty content.
   */
  const SelfFile: string := "self.schema.json"
  const SelfSchema: Json := JObj([("$schema", JObj([("$ref", JStr("./self.schema.json"))]))])

  lemma SelfSchemaContent()
    ensures Build.Content(SelfSchema) == []
    ensures Build.RefFile(JStr("./self.schema.json")) == Some(SelfFile)
  {
    assert SelfSchema.entries[1..] == [];
    assert "./self.schema.json"[..2] == "./";
    assert "./self.schema.json"[2..] == SelfFile;
  }

  lemma SelfSchemaResolves()
    ensures Build.WellRanked(map[SelfFile := SelfSchema], map[SelfFile := 0])
    ensures Build.ResolveAll(map[SelfFile := SelfSchema], map[SelfFile := 0])[SelfFile] ==
      JObj([("$schema", JObj([]))])
  {
    var cat := map[SelfFile := SelfSchema];
    var rank := map[SelfFile := 0];
    SelfSchemaContent();
    assert Build.Targets(JObj(Build.Content(SelfSchema))) == {};
    assert Build.WellRanked(cat, rank);
    var top := Build.Top(cat, rank);
    assert rank[SelfFile] < top;
    var inner := SelfSchema.entries[0].1;
    assert Build.Inlines(inner, 0, cat);
    assert Build.Inlined(SelfFile, cat, rank) == [] by {
      assert Build.Walk(JObj([]), 0, cat, rank, rank[SelfFile]) == [];
    }
    Build.BelowTop(Build.Targets(inner), cat, rank);
    assert Build.Contribution(inner, 0, cat, rank, top) == [];
    assert Build.Walk(inner, 0, cat, rank, top) == [];
    assert Build.Walk(inner, 1, cat, rank, top) == Assign([], []);
    assert Build.Resolve(inner, cat, rank, top) == JObj([]);
    Build.BelowTop(Build.Targets(SelfSchema), cat, rank);
    assert Build.MemberValue(SelfSchema, 0, cat, rank, top) == JObj([]);
    assert Build.Contribution(SelfSchema, 0, cat, rank, top) == [("$schema", JObj([]))];
    assert Build.Walk(SelfSchema, 1, cat, rank, top) == Assign([], [("$schema", JObj([]))]);
    AssignFresh([], [("$schema", JObj([]))]);
    assert Build.Resolve(SelfSchema, cat, rank, top) == JObj([("$schema", JObj([]))]);
  }

  /**
    A person schema that declares only `$schema`, referred to by a bare node:
    the build-time resolver drops the `$schema` and writes `{}`, the load-time
    resolver returns the person schema as it is.
   */
  const DialectPerson: Json := JObj([("$schema", JStr("x"))])
  const PersonNode: Json := JObj([("$ref", JStr(Runtime.PersonRef))])

  lemma PersonSchemaDiverges()
    ensures Build.WellRanked(map[Agreement.PersonFile := DialectPerson], map[Agreement.PersonFile := 0])
    ensures Build.Below(Build.Targets(PersonNode), map[Agreement.PersonFile := DialectPerson], map[Agreement.PersonFile := 0], 1)
    ensures Build.Resolve(PersonNode, map[Agreement.PersonFile := DialectPerson], map[Agreement.PersonFile := 0], 1) == JObj([])
    ensures Runtime.Resolve(PersonNode, DialectPerson) == DialectPerson
  {
    var cat := map[Agreement.PersonFile := DialectPerson];
    var rank := map[Agreement.PersonFile := 0];
    assert Build.Content(DialectPerson) == [] by {
      assert Spread(DialectPerson)[1..] == [];
    }
    assert Build.WellRanked(cat, rank);
    Agreement.PersonRefFile();
    assert Build.MemberTargets("$ref", JStr(Runtime.PersonRef)) == {Agreement.PersonFile};
    assert Build.MembersTargets(PersonNode, 1) == {Agreement.PersonFile};
    assert Build.Targets(PersonNode) == Build.MembersTargets(PersonNode, 1);
    assert Build.Targets(PersonNode) == {Agreement.PersonFile};
    assert UniqueKeys(PersonNode.entries) && UniqueKeys(DialectPerson.entries);
    assert WellFormed(DialectPerson);
    Agreement.SchemaKeyDiverges(PersonNode, 0, cat, rank, 1, DialectPerson);
    assert Build.Inlined(Agreement.PersonFile, cat, rank) == [];
    assert Build.Contribution(PersonNode, 0, cat, rank, 1) == [];
    assert Build.Walk(PersonNode, 1, cat, rank, 1) == Assign([], []);
    Agreement.RuntimePersonRefNode(PersonNode, DialectPerson);
    assert PersonNode.entries[1..] == [];
  }

  /**
    A catalog file whose schema is the boolean `false`: the reference to it is
    not inlined, and the node comes back as it was.
   */
  const NeverFile: string := "never.schema.json"
  const NeverNode: Json := JObj([("$ref", JStr("./never.schema.json"))])

  lemma FalseTargetKept()
    ensures NeverFile in map[NeverFile := JBool(false)]
    ensures Build.WellRanked(map[NeverFile := JBool(false)], map[NeverFile := 0])
    ensures Build.Below(Build.Targets(NeverNode), map[NeverFile := JBool(false)], map[NeverFile := 0], 0)
    ensures Build.Resolve(NeverNode, map[NeverFile := JBool(false)], map[NeverFile := 0], 0) == NeverNode
    ensures Build.Flat(NeverNode, map[NeverFile := JBool(false)])
  {
    var cat := map[NeverFile := JBool(false)];
    var rank := map[NeverFile := 0];
    assert Build.Content(JBool(false)) == [];
    assert Build.WellRanked(cat, rank);
    assert "./never.schema.json"[..2] == "./";
    assert "./never.schema.json"[2..] == NeverFile;
    assert Build.Targets(NeverNode) == Build.MembersTargets(NeverNode, 1);
    assert Build.Targets(NeverNode) == {NeverFile};
    assert UniqueKeys(NeverNode.entries);
    Build.MissingRefKept(NeverNode, 0, cat, rank, 0);
  }
}

=== FILE: Json.dfy ===
/**
  Parsed JSON values and the JavaScript object operations both schema
  resolvers are built from.

  An object is an insertion-ordered association list. JavaScript keeps the
  insertion order of (non integer-like) keys, and both resolvers depend on it:
  `Object.assign` and object spread overwrite an existing key in place and
  append a new key at the end, so which value wins depends on when a key is
  written. `Put`, `Assign`, `Remove` and `Spread` below model these
  operations with plain insertion order.
 */
module Json {

  datatype Option<+T> = None | Some(value: T)

  datatype Json =
    | JNull
    | JBool(b: bool)
    | JNum(n: int)
    | JStr(s: string)
    | JArr(items: seq<Json>)
    | JObj(entries: seq<(string, Json)>)

  /** The members of an object, in insertion order. */
  type Entries = seq<(string, Json)>

  /** `typeof v !== 'object' || v === null`: strings, numbers, booleans and null. */
  predicate IsScalar(v: Json)
  {
    !v.JArr? && !v.JObj?
  }

  /** JavaScript truthiness of a parsed JSON value (numbers are integers here, so NaN does not arise). */
  predicate Truthy(v: Json)
  {
    match v
    case JNull => false
    case JBool(b) => b
    case JNum(n) => n != 0
    case JStr(s) => s != ""
    case _ => true
  }

  function Keys(es: Entries): set<string>
  {
    set i | 0 <= i < |es| :: es[i].0
  }

  /** No key occurs twice: the shape of every object `JSON.parse` or JavaScript itself produces. */
  predicate UniqueKeys(es: Entries)
  {
    forall i, j :: 0 <= i < j < |es| ==> es[i].0 != es[j].0
  }

  /** Property read `o[k]`; `None` stands for `undefined`. */
  function Lookup(es: Entries, k: string): Option<Json>
  {
    if es == [] then None
    else if es[0].0 == k then Some(es[0].1)
    else Lookup(es[1..], k)
  }

  /** Property write `o[k] = v`: an existing key keeps its position, a new key is appended. */
  function Put(es: Entries, k: string, v: Json): Entries
  {
    if es == [] then [(k, v)]
    else if es[0].0 == k then [(k, v)] + es[1..]
    else [es[0]] + Put(es[1..], k, v)
  }

  /** `Object.assign(acc, src)`, and equally `{...acc, ...src}`: the members of `src` written in order. */
  function Assign(acc: Entries, src: Entries): Entries
    decreases |src|
  {
    if src == [] then acc
    else Assign(Put(acc, src[0].0, src[0].1), src[1..])
  }

  /** The rest object of `const { k, ...rest } = o`. */
  function Remove(es: Entries, k: string): Entries
  {
    if es == [] then []
    else (if es[0].0 == k then [] else [es[0]]) + Remove(es[1..], k)
  }

  function Digit(d: nat): char
    requires d < 10
  {
    ('0' as int + d) as char
  }

  /** The property name JavaScript uses for index `n`: its decimal numeral. */
  function NatToString(n: nat): (s: string)
    ensures |s| >= 1
    ensures forall i :: 0 <= i < |s| ==> '0' <= s[i] <= '9'
    ensures n < 10 <==> |s| == 1
  {
    if n < 10 then [Digit(n)] else NatToString(n / 10) + [Digit(n % 10)]
  }

  /**
    The own enumerable members that object spread and object rest read from a
    value: an object's members; an array's or string's indices "0".."n-1" (a
    string contributes its one-character substrings); nothing for other values.
   */
  function Spread(v: Json): Entries
  {
    match v
    case JObj(members) => members
    case JArr(items) => seq(|items|, i requires 0 <= i < |items| => (NatToString(i), items[i]))
    case JStr(s) => seq(|s|, i requires 0 <= i < |s| => (NatToString(i), JStr([s[i]])))
    case _ => []
  }

  /** Every object in the tree has unique keys. */
  predicate WellFormed(v: Json)
  {
    match v
    case JArr(items) => forall i :: 0 <= i < |items| ==> WellFormed(items[i])
    case JObj(members) =>
      && UniqueKeys(members)
      && forall i :: 0 <= i < |members| ==> WellFormed(members[i].1)
    case _ => true
  }

  /** Some object in the tree has a member named `k`. */
  predicate HasKey(v: Json, k: string)
  {
    match v
    case JArr(items) => exists i :: 0 <= i < |items| && HasKey(items[i], k)
    case JObj(members) =>
      exists i :: 0 <= i < |members| && (members[i].0 == k || HasKey(members[i].1, k))
    case _ => false
  }

  // ---------------------------------------------------------------------
  // Keys and uniqueness

  lemma KeysAppend(a: Entries, b: Entries)
    ensures Keys(a + b) == Keys(a) + Keys(b)
  {
    forall k | k in Keys(a) ensures k in Keys(a + b) {
      var i :| 0 <= i < |a| && a[i].0 == k;
      assert (a + b)[i].0 == k;
    }
    forall k | k in Keys(a + b) ensures k in Keys(a) + Keys(b) {
      var i :| 0 <= i < |a + b| && (a + b)[i].0 == k;
      if i >= |a| {
        assert b[i - |a|].0 == k;
      }
    }
    forall k | k in Keys(b) ensures k in Keys(a + b) {
      var i :| 0 <= i < |b| && b[i].0 == k;
      assert (a + b)[|a| + i].0 == k;
    }
  }

  lemma KeysSingle(e: (string, Json))
    ensures Keys([e]) == {e.0}
  {
    assert [e][0].0 == e.0;
  }

  lemma KeysTail(es: Entries)
    requires es != []
    ensures Keys(es) == {es[0].0} + Keys(es[1..])
  {
    assert es == [es[0]] + es[1..];
    KeysAppend([es[0]], es[1..]);
    KeysSingle(es[0]);
  }

  lemma UniqueAppend(a: Entries, b: Entries)
    ensures UniqueKeys(a + b) <==> UniqueKeys(a) && UniqueKeys(b) && Keys(a) !! Keys(b)
  {
    if UniqueKeys(a + b) {
      forall i, j | 0 <= i < j < |a| ensures a[i].0 != a[j].0 {
        assert (a + b)[i] == a[i] && (a + b)[j] == a[j];
      }
      forall i, j | 0 <= i < j < |b| ensures b[i].0 != b[j].0 {
        assert (a + b)[|a| + i] == b[i] && (a + b)[|a| + j] == b[j];
      }
      forall i, j | 0 <= i < |a| && 0 <= j < |b| ensures a[i].0 != b[j].0 {
        assert (a + b)[i] == a[i] && (a + b)[|a| + j] == b[j];
      }
    }
    if UniqueKeys(a) && UniqueKeys(b) && Keys(a) !! Keys(b) {
      forall i, j | 0 <= i < j < |a + b| ensures (a + b)[i].0 != (a + b)[j].0 {
        if j < |a| {
        } else if i >= |a| {
          assert (a + b)[i] == b[i - |a|] && (a + b)[j] == b[j - |a|];
        } else {
          assert (a + b)[i].0 in Keys(a);
          assert (a + b)[j] == b[j - |a|];
          assert (a + b)[j].0 in Keys(b);
        }
      }
    }
  }

  lemma KeysSlice(es: Entries, a: nat, b: nat, k: string)
    requires a <= b <= |es|
    ensures k in Keys(es[a..b]) <==> exists i :: a <= i < b && es[i].0 == k
  {
    var t := es[a..b];
    if k in Keys(t) {
      var i :| 0 <= i < |t| && t[i].0 == k;
      assert es[a + i].0 == k;
    }
    if exists i :: a <= i < b && es[i].0 == k {
      var i :| a <= i < b && es[i].0 == k;
      assert t[i - a].0 == k;
    }
  }

  /** In an object with unique keys, the key at `j` occurs nowhere else. */
  lemma UniqueElsewhere(es: Entries, j: nat, a: nat, b: nat)
    requires UniqueKeys(es) && j < |es| && a <= b <= |es| && (j < a || b <= j)
    ensures es[j].0 !in Keys(es[a..b])
  {
    KeysSlice(es, a, b, es[j].0);
  }

  lemma UniqueTail(es: Entries)
    requires es != []
    ensures UniqueKeys(es) <==> es[0].0 !in Keys(es[1..]) && UniqueKeys(es[1..])
  {
    assert es == [es[0]] + es[1..];
    UniqueAppend([es[0]], es[1..]);
  }

  // ---------------------------------------------------------------------
  // Lookup

  lemma LookupAbsent(es: Entries, k: string)
    ensures Lookup(es, k).None? <==> k !in Keys(es)
  {
    if es != [] {
      KeysTail(es);
      LookupAbsent(es[1..], k);
    }
  }

  lemma LookupAt(es: Entries, j: nat)
    requires UniqueKeys(es) && j < |es|
    ensures Lookup(es, es[j].0) == Some(es[j].1)
  {
    UniqueTail(es);
    if j > 0 {
      assert es[1..][j - 1] == es[j];
      assert es[j].0 in Keys(es[1..]);
      LookupAt(es[1..], j - 1);
    }
  }

  lemma LookupAppend(a: Entries, b: Entries, k: string)
    ensures Lookup(a + b, k) == if k in Keys(a) then Lookup(a, k) else Lookup(b, k)
  {
    if a == [] {
      assert a + b == b;
    } else {
      KeysTail(a);
      assert (a + b)[1..] == a[1..] + b;
      LookupAppend(a[1..], b, k);
    }
  }

  // ---------------------------------------------------------------------
  // Put

  lemma {:induction false} PutLookup(es: Entries, k: string, v: Json, j: string)
    ensures Lookup(Put(es, k, v), j) == if j == k then Some(v) else Lookup(es, j)
  {
    if es != [] && es[0].0 != k {
      PutLookup(es[1..], k, v, j);
    }
  }

  lemma PutKeys(es: Entries, k: string, v: Json)
    ensures Keys(Put(es, k, v)) == Keys(es) + {k}
  {
    if es != [] {
      KeysTail(es);
      if es[0].0 == k {
        KeysTail(Put(es, k, v));
        assert Put(es, k, v)[1..] == es[1..];
      } else {
        PutKeys(es[1..], k, v);
        KeysTail(Put(es, k, v));
        assert Put(es, k, v)[1..] == Put(es[1..], k, v);
      }
    } else {
      KeysSingle((k, v));
    }
  }

  lemma PutUnique(es: Entries, k: string, v: Json)
    requires UniqueKeys(es)
    ensures UniqueKeys(Put(es, k, v))
  {
    if es != [] {
      UniqueTail(es);
      if es[0].0 == k {
        UniqueAppend([(k, v)], es[1..]);
      } else {
        PutUnique(es[1..], k, v);
        PutKeys(es[1..], k, v);
        UniqueAppend([es[0]], Put(es[1..], k, v));
      }
    }
  }

  lemma {:induction false} PutFresh(es: Entries, k: string, v: Json)
    requires k !in Keys(es)
    ensures Put(es, k, v) == es + [(k, v)]
  {
    if es != [] {
      KeysTail(es);
      PutFresh(es[1..], k, v);
    }
  }

  lemma {:induction false} PutMembers(es: Entries, k: string, v: Json)
    ensures forall e :: e in Put(es, k, v) ==> e in es || e == (k, v)
  {
    if es != [] && es[0].0 != k {
      PutMembers(es[1..], k, v);
    }
  }

  // ---------------------------------------------------------------------
  // Assign

  lemma AssignConcat(acc: Entries, x: Entries, y: Entries)
    ensures Assign(acc, x + y) == Assign(Assign(acc, x), y)
    decreases |x|
  {
    if x == [] {
      assert x + y == y;
    } else {
      assert (x + y)[1..] == x[1..] + y;
      AssignConcat(Put(acc, x[0].0, x[0].1), x[1..], y);
    }
  }

  lemma AssignSingle(acc: Entries, e: (string, Json))
    ensures Assign(acc, [e]) == Put(acc, e.0, e.1)
  {
    assert [e][1..] == [];
  }

  lemma AssignKeys(acc: Entries, src: Entries)
    ensures Keys(Assign(acc, src)) == Keys(acc) + Keys(src)
    decreases |src|
  {
    if src != [] {
      KeysTail(src);
      PutKeys(acc, src[0].0, src[0].1);
      AssignKeys(Put(acc, src[0].0, src[0].1), src[1..]);
    }
  }

  lemma AssignUnique(acc: Entries, src: Entries)
    requires UniqueKeys(acc)
    ensures UniqueKeys(Assign(acc, src))
    decreases |src|
  {
    if src != [] {
      PutUnique(acc, src[0].0, src[0].1);
      AssignUnique(Put(acc, src[0].0, src[0].1), src[1..]);
    }
  }

  lemma AssignLookup(acc: Entries, src: Entries, k: string)
    requires UniqueKeys(src)
    ensures Lookup(Assign(acc, src), k) == if k in Keys(src) then Lookup(src, k) else Lookup(acc, k)
    decreases |src|
  {
    if src != [] {
      KeysTail(src);
      UniqueTail(src);
      PutLookup(acc, src[0].0, src[0].1, k);
      AssignLookup(Put(acc, src[0].0, src[0].1), src[1..], k);
    }
  }

  lemma {:induction false} AssignFresh(acc: Entries, src: Entries)
    requires UniqueKeys(src) && Keys(acc) !! Keys(src)
    ensures Assign(acc, src) == acc + src
    decreases |src|
  {
    if src != [] {
      var s0, rest := src[0], src[1..];
      KeysTail(src);
      UniqueTail(src);
      PutFresh(acc, s0.0, s0.1);
      assert Put(acc, s0.0, s0.1) == acc + [s0];
      KeysAppend(acc, [s0]);
      KeysSingle(s0);
      assert Keys(acc + [s0]) == Keys(acc) + {s0.0};
      AssignFresh(acc + [s0], rest);
      assert acc + [s0] + rest == acc + src;
    }
  }

  lemma AssignMembers(acc: Entries, src: Entries)
    ensures forall e :: e in Assign(acc, src) ==> e in acc || e in src
    decreases |src|
  {
    if src != [] {
      PutMembers(acc, src[0].0, src[0].1);
      AssignMembers(Put(acc, src[0].0, src[0].1), src[1..]);
    }
  }

  // ---------------------------------------------------------------------
  // Remove

  lemma RemoveKeys(es: Entries, k: string)
    ensures Keys(Remove(es, k)) == Keys(es) - {k}
  {
    if es != [] {
      KeysTail(es);
      RemoveKeys(es[1..], k);
      KeysSingle(es[0]);
      KeysAppend(if es[0].0 == k then [] else [es[0]], Remove(es[1..], k));
    }
  }

  lemma RemoveUnique(es: Entries, k: string)
    requires UniqueKeys(es)
    ensures UniqueKeys(Remove(es, k))
  {
    if es != [] {
      UniqueTail(es);
      RemoveUnique(es[1..], k);
      RemoveKeys(es[1..], k);
      UniqueAppend(if es[0].0 == k then [] else [es[0]], Remove(es[1..], k));
    }
  }

  lemma RemoveLookup(es: Entries, k: string, j: string)
    ensures Lookup(Remove(es, k), j) == if j == k then None else Lookup(es, j)
  {
    if es != [] {
      RemoveLookup(es[1..], k, j);
      if es[0].0 != k {
        assert Remove(es, k) == [es[0]] + Remove(es[1..], k);
        assert Remove(es, k)[1..] == Remove(es[1..], k);
      } else {
        assert Remove(es, k) == Remove(es[1..], k);
      }
    }
  }

  lemma {:induction false} RemoveMembers(es: Entries, k: string)
    ensures forall e :: e in Remove(es, k) ==> e in es && e.0 != k
  {
    if es != [] {
      RemoveMembers(es[1..], k);
    }
  }

  lemma {:induction false} RemoveAbsent(es: Entries, k: string)
    requires k !in Keys(es)
    ensures Remove(es, k) == es
  {
    if es != [] {
      KeysTail(es);
      RemoveAbsent(es[1..], k);
    }
  }

  lemma RemoveHead(es: Entries)
    requires es != [] && UniqueKeys(es)
    ensures Remove(es, es[0].0) == es[1..]
  {
    UniqueTail(es);
    RemoveAbsent(es[1..], es[0].0);
  }

  // ---------------------------------------------------------------------
  // Index keys and Spread

  /** Distinct indices get distinct property names. */
  lemma {:induction false} NatToStringInjective(a: nat, b: nat)
    requires NatToString(a) == NatToString(b)
    ensures a == b
    decreases a
  {
    if a >= 10 && b >= 10 {
      var sa, sb := NatToString(a), NatToString(b);
      assert sa[|sa| - 1] == Digit(a % 10) && sb[|sb| - 1] == Digit(b % 10);
      assert sa[..|sa| - 1] == NatToString(a / 10);
      assert sb[..|sb| - 1] == NatToString(b / 10);
      NatToStringInjective(a / 10, b / 10);
    }
  }

  lemma SpreadWellFormed(v: Json)
    requires WellFormed(v)
    ensures UniqueKeys(Spread(v))
    ensures forall i :: 0 <= i < |Spread(v)| ==> WellFormed(Spread(v)[i].1)
  {
    match v
    case JArr(items) =>
      forall i, j | 0 <= i < j < |items| ensures Spread(v)[i].0 != Spread(v)[j].0 {
        if NatToString(i) == NatToString(j) {
          NatToStringInjective(i, j);
        }
      }
    case JStr(s) =>
      forall i, j | 0 <= i < j < |s| ensures Spread(v)[i].0 != Spread(v)[j].0 {
        if NatToString(i) == NatToString(j) {
          NatToStringInjective(i, j);
        }
      }
    case _ =>
  }
}

=== FILE: ResolveSchemaRefs.dfy ===
/**
  The build-time `$ref` inliner of `bin/resolve-schema-refs.cjs`.

  `resolveRefs(obj, schemas)` walks a parsed schema. Scalars come back as they
  are and arrays element by element. An object is rebuilt member by member into
  a fresh accumulator:
  - `"$ref": "./X"` with `X` present and truthy in the catalog is replaced by
    the members of the resolved catalog document `X` minus its top-level
    `$schema`, written with
    `Object.assign` at that point of the walk, so a member written later
    overrides them and a member written earlier is overridden by them;
  - `"$ref": "./X"` with `X` missing (or falsy) is kept as it is;
  - `title` and `description` are copied without being walked;
  - every other member, a `$ref` whose value is not a `./` string included, is
    walked recursively.

  The source recurses into catalog documents without checking for cycles.
  When files inline each other in a cycle the recursion exhausts the call
  stack: Node throws a `RangeError`, the batch loop stops, and the catalog
  files after the offending one are never written. Here a ghost rank on
  catalog files bounds the recursion instead: every file that the inlined
  content of a file (all of it but its top-level `$schema`) would inline ranks
  strictly below that file.
 */
module ResolveSchemaRefs {
  import opened Json

  /** The parsed `*.schema.json` files, by file name. */
  type Catalog = map<string, Json>

  /** The file named by a relative reference `"./X"`: the value is a string that starts with `./`. */
  function RefFile(v: Json): Option<string>
  {
    if v.JStr? && |v.s| >= 2 && v.s[..2] == "./" then Some(v.s[2..]) else None
  }

  /** `schemas[f]` is present and truthy, the test the source makes before inlining. */
  predicate Found(cat: Catalog, f: string)
  {
    f in cat && Truthy(cat[f])
  }

  /** Keys whose values are copied as they are. */
  predicate IsAnnotation(k: string)
  {
    k == "title" || k == "description"
  }

  /** `const { $schema, ...refContent } = refSchema`: what is inlined, before it is resolved. */
  function Content(doc: Json): Entries
  {
    Remove(Spread(doc), "$schema")
  }

  /** Member `j` of `obj` is a relative `$ref` whose file is found (present and truthy), so it gets inlined. */
  predicate Inlines(obj: Json, j: nat, cat: Catalog)
    requires obj.JObj? && j < |obj.entries|
  {
    var (k, x) := obj.entries[j];
    k == "$ref" && RefFile(x).Some? && Found(cat, RefFile(x).value)
  }

  // ---------------------------------------------------------------------
  // The files a walk looks up

  /** The catalog files `resolveRefs` looks up while walking `v` (not counting the files it inlines). */
  function Targets(v: Json): set<string>
    decreases v, 2
  {
    match v
    case JArr(items) => ItemsTargets(v, |items|)
    case JObj(members) => MembersTargets(v, |members|)
    case _ => {}
  }

  function ItemsTargets(arr: Json, i: nat): set<string>
    requires arr.JArr? && i <= |arr.items|
    decreases arr, 1, i
  {
    if i == 0 then {} else ItemsTargets(arr, i - 1) + Targets(arr.items[i - 1])
  }

  function MembersTargets(obj: Json, i: nat): set<string>
    requires obj.JObj? && i <= |obj.entries|
    decreases obj, 1, i
  {
    if i == 0 then {}
    else MembersTargets(obj, i - 1) + MemberTargets(obj.entries[i - 1].0, obj.entries[i - 1].1)
  }

  /** The files looked up on the way through an object member `k: x`. */
  function MemberTargets(k: string, x: Json): set<string>
    decreases x, 3
  {
    if k == "$ref" && RefFile(x).Some? then {RefFile(x).value}
    else if IsAnnotation(k) then {}
    else Targets(x)
  }

  /** Every file of `ts` that the walk would inline ranks below `bound`. */
  predicate Below(ts: set<string>, cat: Catalog, rank: map<string, nat>, bound: nat)
  {
    forall f :: f in ts && Found(cat, f) ==> f in rank && rank[f] < bound
  }

  /**
    The catalog's references form no cycle through inlining: the content a
    file contributes when it is inlined (everything but its top-level
    `$schema`) only inlines files of lower rank.
   */
  predicate WellRanked(cat: Catalog, rank: map<string, nat>)
  {
    forall f :: f in cat ==> f in rank && Below(Targets(JObj(Content(cat[f]))), cat, rank, rank[f])
  }

  /** Ranking whole documents, `$schema` member included, is a special case. */
  lemma WholeDocumentRanking(cat: Catalog, rank: map<string, nat>)
    requires forall f :: f in cat ==> f in rank && Below(Targets(cat[f]), cat, rank, rank[f])
    ensures WellRanked(cat, rank)
  {
    forall f | f in cat ensures Below(Targets(JObj(Content(cat[f]))), cat, rank, rank[f]) {
      ContentTargets(cat[f]);
    }
  }

  /** A bound above the rank of every catalog file: what a whole document may inline. */
  ghost function Top(cat: Catalog, rank: map<string, nat>): (t: nat)
    requires forall f :: f in cat ==> f in rank
    ensures forall f :: f in cat ==> rank[f] < t
  {
    TopOf(cat.Keys, rank)
  }

  ghost function TopOf(keys: set<string>, rank: map<string, nat>): (t: nat)
    requires keys <= rank.Keys
    ensures forall f :: f in keys ==> rank[f] < t
    decreases keys
  {
    if keys == {} then 0
    else
      var k :| k in keys;
      var t := TopOf(keys - {k}, rank);
      if rank[k] < t then t else rank[k] + 1
  }

  /** Below the top rank, every lookup of a present file is allowed. */
  lemma BelowTop(ts: set<string>, cat: Catalog, rank: map<string, nat>)
    requires WellRanked(cat, rank)
    ensures Below(ts, cat, rank, Top(cat, rank))
  {
  }

  /** No file the walk of `v` looks up is found (present and truthy): nothing is left to inline. */
  predicate Flat(v: Json, cat: Catalog)
  {
    forall f :: f in Targets(v) ==> !Found(cat, f)
  }

  predicate CatalogWellFormed(cat: Catalog)
  {
    forall f :: f in cat ==> WellFormed(cat[f])
  }

  lemma {:induction false} ItemTargetsIncluded(arr: Json, i: nat, j: nat)
    requires arr.JArr? && j < i <= |arr.items|
    ensures Targets(arr.items[j]) <= ItemsTargets(arr, i)
    decreases i
  {
    if j < i - 1 {
      ItemTargetsIncluded(arr, i - 1, j);
    }
  }

  lemma {:induction false} MemberTargetsIncluded(obj: Json, i: nat, j: nat)
    requires obj.JObj? && j < i <= |obj.entries|
    ensures MemberTargets(obj.entries[j].0, obj.entries[j].1) <= MembersTargets(obj, i)
    decreases i
  {
    if j < i - 1 {
      MemberTargetsIncluded(obj, i - 1, j);
    }
  }

  /** A file is looked up in an object exactly when some member looks it up. */
  lemma {:induction false} MembersTargetsChar(obj: Json, i: nat, f: string)
    requires obj.JObj? && i <= |obj.entries|
    ensures f in MembersTargets(obj, i) <==>
      exists j :: 0 <= j < i && f in MemberTargets(obj.entries[j].0, obj.entries[j].1)
  {
    if i > 0 {
      MembersTargetsChar(obj, i - 1, f);
      var e := obj.entries[i - 1];
      if f in MemberTargets(e.0, e.1) {
        assert 0 <= i - 1 < i && f in MemberTargets(obj.entries[i - 1].0, obj.entries[i - 1].1);
      }
      if exists j :: 0 <= j < i && f in MemberTargets(obj.entries[j].0, obj.entries[j].1) {
        var j :| 0 <= j < i && f in MemberTargets(obj.entries[j].0, obj.entries[j].1);
        if j < i - 1 {
          assert f in MembersTargets(obj, i - 1);
        }
      }
    }
  }

  lemma {:induction false} ItemsTargetsChar(arr: Json, i: nat, f: string)
    requires arr.JArr? && i <= |arr.items|
    ensures f in ItemsTargets(arr, i) <==> exists j :: 0 <= j < i && f in Targets(arr.items[j])
  {
    if i > 0 {
      ItemsTargetsChar(arr, i - 1, f);
      if f in Targets(arr.items[i - 1]) {
        assert 0 <= i - 1 < i && f in Targets(arr.items[i - 1]);
      }
      if exists j :: 0 <= j < i && f in Targets(arr.items[j]) {
        var j :| 0 <= j < i && f in Targets(arr.items[j]);
        if j < i - 1 {
          assert f in ItemsTargets(arr, i - 1);
        }
      }
    }
  }

  lemma NatToStringNotKeyword(n: nat)
    ensures NatToString(n) != "$ref" && !IsAnnotation(NatToString(n))
  {
    var s := NatToString(n);
    assert '0' <= s[0] <= '9';
  }

  /** Inlining `doc` looks up no file that a walk of `doc` itself would not. */
  lemma ContentTargets(doc: Json)
    ensures Targets(JObj(Content(doc))) <= Targets(doc)
  {
    RemoveMembers(Spread(doc), "$schema");
    match doc
    case JObj(_) => SubsetTargets(JObj(Content(doc)), doc);
    case JArr(_) => ArrayContentTargets(doc);
    case JStr(_) => StringContentTargets(doc);
    case _ =>
  }

  /** An object made of some of another object's members looks up no more files. */
  lemma SubsetTargets(a: Json, b: Json)
    requires a.JObj? && b.JObj? && forall e :: e in a.entries ==> e in b.entries
    ensures Targets(a) <= Targets(b)
  {
    forall f | f in Targets(a) ensures f in Targets(b) {
      MembersTargetsChar(a, |a.entries|, f);
      var j :| 0 <= j < |a.entries| && f in MemberTargets(a.entries[j].0, a.entries[j].1);
      assert a.entries[j] in b.entries;
      MembersTargetsChar(b, |b.entries|, f);
    }
  }

  lemma ArrayContentTargets(doc: Json)
    requires doc.JArr?
    ensures Targets(JObj(Content(doc))) <= Targets(doc)
  {
    var obj := JObj(Content(doc));
    var sp := Spread(doc);
    RemoveMembers(sp, "$schema");
    forall f | f in Targets(obj) ensures f in Targets(doc) {
      MembersTargetsChar(obj, |obj.entries|, f);
      var j :| 0 <= j < |obj.entries| && f in MemberTargets(obj.entries[j].0, obj.entries[j].1);
      assert obj.entries[j] in sp;
      var i :| 0 <= i < |sp| && sp[i] == obj.entries[j];
      NatToStringNotKeyword(i);
      ItemsTargetsChar(doc, |doc.items|, f);
    }
  }

  lemma StringContentTargets(doc: Json)
    requires doc.JStr?
    ensures Targets(JObj(Content(doc))) == {}
  {
    var obj := JObj(Content(doc));
    var sp := Spread(doc);
    RemoveMembers(sp, "$schema");
    forall f ensures f !in Targets(obj) {
      MembersTargetsChar(obj, |obj.entries|, f);
      forall j | 0 <= j < |obj.entries| ensures f !in MemberTargets(obj.entries[j].0, obj.entries[j].1) {
        assert obj.entries[j] in sp;
        var i :| 0 <= i < |sp| && sp[i] == obj.entries[j];
        NatToStringNotKeyword(i);
      }
    }
  }

  // ---------------------------------------------------------------------
  // The resolver

  /** `resolveRefs(v, cat)`. */
  function Resolve(v: Json, cat: Catalog, ghost rank: map<string, nat>, ghost bound: nat): Json
    requires WellRanked(cat, rank) && Below(Targets(v), cat, rank, bound)
    decreases bound, v, 2
  {
    match v
    case JArr(items) => JArr(ResolveItems(v, |items|, cat, rank, bound))
    case JObj(members) => JObj(Walk(v, |members|, cat, rank, bound))
    case _ => v
  }

  /** `obj.map(item => resolveRefs(item, schemas))`, on the first `i` items. */
  function ResolveItems(arr: Json, i: nat, cat: Catalog, ghost rank: map<string, nat>, ghost bound: nat): seq<Json>
    requires arr.JArr? && i <= |arr.items|
    requires WellRanked(cat, rank) && Below(Targets(arr), cat, rank, bound)
    decreases bound, arr, 1, i
  {
    if i == 0 then []
    else
      ItemTargetsIncluded(arr, |arr.items|, i - 1);
      ResolveItems(arr, i - 1, cat, rank, bound) + [Resolve(arr.items[i - 1], cat, rank, bound)]
  }

  /** The object `resolved` after the loop has processed the first `i` members of `obj`. */
  function Walk(obj: Json, i: nat, cat: Catalog, ghost rank: map<string, nat>, ghost bound: nat): Entries
    requires obj.JObj? && i <= |obj.entries|
    requires WellRanked(cat, rank) && Below(Targets(obj), cat, rank, bound)
    decreases bound, obj, 1, i
  {
    if i == 0 then []
    else Assign(Walk(obj, i - 1, cat, rank, bound), Contribution(obj, i - 1, cat, rank, bound))
  }

  /** What processing member `j` writes into `resolved`, in order. */
  function Contribution(obj: Json, j: nat, cat: Catalog, ghost rank: map<string, nat>, ghost bound: nat): Entries
    requires obj.JObj? && j < |obj.entries|
    requires WellRanked(cat, rank) && Below(Targets(obj), cat, rank, bound)
    decreases bound, obj, 0, 1
  {
    if Inlines(obj, j, cat) then
      MemberTargetsIncluded(obj, |obj.entries|, j);
      Inlined(RefFile(obj.entries[j].1).value, cat, rank)
    else [(obj.entries[j].0, MemberValue(obj, j, cat, rank, bound))]
  }

  /**
    The value member `j` is stored with when it is not inlined: `title`,
    `description` and an unresolvable relative `$ref` keep their value, every
    other member is resolved.
   */
  function MemberValue(obj: Json, j: nat, cat: Catalog, ghost rank: map<string, nat>, ghost bound: nat): Json
    requires obj.JObj? && j < |obj.entries|
    requires WellRanked(cat, rank) && Below(Targets(obj), cat, rank, bound)
    decreases bound, obj, 0, 0
  {
    var (k, x) := obj.entries[j];
    if IsAnnotation(k) || (k == "$ref" && RefFile(x).Some?) then x
    else
      MemberTargetsIncluded(obj, |obj.entries|, j);
      Resolve(x, cat, rank, bound)
  }

  /** `resolveRefs(refContent, schemas)` for catalog file `f`: its members without `$schema`, resolved. */
  function Inlined(f: string, cat: Catalog, ghost rank: map<string, nat>): Entries
    requires WellRanked(cat, rank) && Found(cat, f)
    decreases rank[f], JObj(Content(cat[f])), 3
  {
    Walk(JObj(Content(cat[f])), |Content(cat[f])|, cat, rank, rank[f])
  }

  /**
    The batch run: every catalog file resolved against the whole catalog, under
    its own name. A whole file may inline any file through its top-level
    `$schema` member, itself included, so it is resolved below `Top`.
   */
  function ResolveAll(cat: Catalog, ghost rank: map<string, nat>): (out: map<string, Json>)
    requires WellRanked(cat, rank)
    ensures out.Keys == cat.Keys
  {
    map f | f in cat :: BelowTop(Targets(cat[f]), cat, rank); Resolve(cat[f], cat, rank, Top(cat, rank))
  }

  // ---------------------------------------------------------------------
  // Scalars and arrays

  /** Strings, numbers, booleans and null come back unchanged. */
  lemma ResolveScalar(v: Json, cat: Catalog, rank: map<string, nat>, bound: nat)
    requires WellRanked(cat, rank) && Below(Targets(v), cat, rank, bound)
    requires IsScalar(v)
    ensures Resolve(v, cat, rank, bound) == v
  {
  }

  lemma {:induction false} ResolveItemsSpec(arr: Json, i: nat, cat: Catalog, rank: map<string, nat>, bound: nat)
    requires arr.JArr? && i <= |arr.items|
    requires WellRanked(cat, rank) && Below(Targets(arr), cat, rank, bound)
    ensures |ResolveItems(arr, i, cat, rank, bound)| == i
    ensures forall j :: 0 <= j < i ==>
      Below(Targets(arr.items[j]), cat, rank, bound) &&
      ResolveItems(arr, i, cat, rank, bound)[j] == Resolve(arr.items[j], cat, rank, bound)
  {
    if i > 0 {
      ResolveItemsSpec(arr, i - 1, cat, rank, bound);
      ItemTargetsIncluded(arr, |arr.items|, i - 1);
    }
  }

  /** An array resolves to an array of the same length whose item `j` is item `j` resolved. */
  lemma ResolveArray(v: Json, cat: Catalog, rank: map<string, nat>, bound: nat)
    requires WellRanked(cat, rank) && Below(Targets(v), cat, rank, bound)
    requires v.JArr?
    ensures Resolve(v, cat, rank, bound).JArr?
    ensures |Resolve(v, cat, rank, bound).items| == |v.items|
    ensures forall j :: 0 <= j < |v.items| ==>
      Below(Targets(v.items[j]), cat, rank, bound) &&
      Resolve(v, cat, rank, bound).items[j] == Resolve(v.items[j], cat, rank, bound)
  {
    ResolveItemsSpec(v, |v.items|, cat, rank, bound);
  }

  // ---------------------------------------------------------------------
  // Objects: the walk member by member

  lemma {:induction false} WalkUnique(obj: Json, i: nat, cat: Catalog, rank: map<string, nat>, bound: nat)
    requires obj.JObj? && i <= |obj.entries|
    requires WellRanked(cat, rank) && Below(Targets(obj), cat, rank, bound)
    ensures UniqueKeys(Walk(obj, i, cat, rank, bound))
    decreases i
  {
    if i > 0 {
      WalkUnique(obj, i - 1, cat, rank, bound);
      AssignUnique(Walk(obj, i - 1, cat, rank, bound), Contribution(obj, i - 1, cat, rank, bound));
    }
  }

  lemma ContributionUnique(obj: Json, j: nat, cat: Catalog, rank: map<string, nat>, bound: nat)
    requires obj.JObj? && j < |obj.entries|
    requires WellRanked(cat, rank) && Below(Targets(obj), cat, rank, bound)
    ensures UniqueKeys(Contribution(obj, j, cat, rank, bound))
  {
    if Inlines(obj, j, cat) {
      var f := RefFile(obj.entries[j].1).value;
      MemberTargetsIncluded(obj, |obj.entries|, j);
      WalkUnique(JObj(Content(cat[f])), |Content(cat[f])|, cat, rank, rank[f]);
    }
  }

  /** One more member processed: its contribution is written over what the walk has so far. */
  lemma WalkStep(obj: Json, i: nat, cat: Catalog, rank: map<string, nat>, bound: nat, k: string)
    requires obj.JObj? && 0 < i <= |obj.entries|
    requires WellRanked(cat, rank) && Below(Targets(obj), cat, rank, bound)
    ensures Keys(Walk(obj, i, cat, rank, bound)) ==
      Keys(Walk(obj, i - 1, cat, rank, bound)) + Keys(Contribution(obj, i - 1, cat, rank, bound))
    ensures Lookup(Walk(obj, i, cat, rank, bound), k) ==
      if k in Keys(Contribution(obj, i - 1, cat, rank, bound))
      then Lookup(Contribution(obj, i - 1, cat, rank, bound), k)
      else Lookup(Walk(obj, i - 1, cat, rank, bound), k)
  {
    var w, c := Walk(obj, i - 1, cat, rank, bound), Contribution(obj, i - 1, cat, rank, bound);
    ContributionUnique(obj, i - 1, cat, rank, bound);
    AssignKeys(w, c);
    AssignLookup(w, c, k);
  }

  /** A member that is not inlined is written as one member under its own key. */
  lemma PlainContribution(obj: Json, j: nat, cat: Catalog, rank: map<string, nat>, bound: nat)
    requires obj.JObj? && j < |obj.entries|
    requires WellRanked(cat, rank) && Below(Targets(obj), cat, rank, bound)
    requires !Inlines(obj, j, cat)
    ensures Keys(Contribution(obj, j, cat, rank, bound)) == {obj.entries[j].0}
    ensures Lookup(Contribution(obj, j, cat, rank, bound), obj.entries[j].0) == Some(MemberValue(obj, j, cat, rank, bound))
  {
    KeysSingle((obj.entries[j].0, MemberValue(obj, j, cat, rank, bound)));
  }

  /**
    While no member is inlined, the walk rebuilds the members in their order,
    each with the value `MemberValue` gives it.
   */
  lemma {:induction false} WalkPlain(obj: Json, i: nat, cat: Catalog, rank: map<string, nat>, bound: nat)
    requires obj.JObj? && i <= |obj.entries| && UniqueKeys(obj.entries)
    requires WellRanked(cat, rank) && Below(Targets(obj), cat, rank, bound)
    requires forall j :: 0 <= j < i ==> !Inlines(obj, j, cat)
    ensures |Walk(obj, i, cat, rank, bound)| == i
    ensures forall j :: 0 <= j < i ==>
      Walk(obj, i, cat, rank, bound)[j] == (obj.entries[j].0, MemberValue(obj, j, cat, rank, bound))
    decreases i
  {
    if i > 0 {
      var w := Walk(obj, i - 1, cat, rank, bound);
      var (k, x) := obj.entries[i - 1];
      var mv := MemberValue(obj, i - 1, cat, rank, bound);
      WalkPlain(obj, i - 1, cat, rank, bound);
      assert k !in Keys(w) by {
        forall j | 0 <= j < |w| ensures w[j].0 != k {
          assert w[j].0 == obj.entries[j].0;
        }
      }
      assert Contribution(obj, i - 1, cat, rank, bound) == [(k, mv)];
      AssignSingle(w, (k, mv));
      PutFresh(w, k, mv);
    }
  }

  /** From member `m` on, when none of the members is inlined, the walk adds exactly their keys. */
  lemma {:induction false} WalkTailKeys(obj: Json, m: nat, i: nat, cat: Catalog, rank: map<string, nat>, bound: nat)
    requires obj.JObj? && m <= i <= |obj.entries| && UniqueKeys(obj.entries)
    requires WellRanked(cat, rank) && Below(Targets(obj), cat, rank, bound)
    requires forall j :: m <= j < i ==> !Inlines(obj, j, cat)
    ensures Keys(Walk(obj, i, cat, rank, bound)) == Keys(Walk(obj, m, cat, rank, bound)) + Keys(obj.entries[m..i])
    decreases i
  {
    if i > m {
      WalkTailKeys(obj, m, i - 1, cat, rank, bound);
      TailKeysStep(obj.entries, m, i);
      PlainStep(obj, i, cat, rank, bound, "");
    } else {
      assert obj.entries[m..i] == [];
    }
  }

  /**
    From member `m` on, when none of the members is inlined, each of them holds
    its own value in the result and every other key keeps the value it had.
   */
  lemma {:induction false} WalkTailLookup(obj: Json, m: nat, i: nat, cat: Catalog, rank: map<string, nat>, bound: nat)
    requires obj.JObj? && m <= i <= |obj.entries| && UniqueKeys(obj.entries)
    requires WellRanked(cat, rank) && Below(Targets(obj), cat, rank, bound)
    requires forall j :: m <= j < i ==> !Inlines(obj, j, cat)
    ensures forall j :: m <= j < i ==>
      Lookup(Walk(obj, i, cat, rank, bound), obj.entries[j].0) == Some(MemberValue(obj, j, cat, rank, bound))
    ensures forall k :: k !in Keys(obj.entries[m..i]) ==>
      Lookup(Walk(obj, i, cat, rank, bound), k) == Lookup(Walk(obj, m, cat, rank, bound), k)
    decreases i
  {
    if i > m {
      var es := obj.entries;
      WalkTailLookup(obj, m, i - 1, cat, rank, bound);
      TailKeysStep(es, m, i);
      PlainStep(obj, i, cat, rank, bound, es[i - 1].0);
      forall j | m <= j < i - 1
        ensures Lookup(Walk(obj, i, cat, rank, bound), es[j].0) == Some(MemberValue(obj, j, cat, rank, bound))
      {
        PlainStep(obj, i, cat, rank, bound, es[j].0);
      }
      forall k | k !in Keys(es[m..i])
        ensures Lookup(Walk(obj, i, cat, rank, bound), k) == Lookup(Walk(obj, m, cat, rank, bound), k)
      {
        PlainStep(obj, i, cat, rank, bound, k);
      }
    } else {
      assert obj.entries[m..i] == [];
    }
  }

  /** Extending the slice `es[m..i - 1]` by one member of a unique-key list adds its key, which is new. */
  lemma TailKeysStep(es: Entries, m: nat, i: nat)
    requires UniqueKeys(es) && m < i <= |es|
    ensures Keys(es[m..i]) == Keys(es[m..i - 1]) + {es[i - 1].0}
    ensures forall j :: m <= j < i - 1 ==> es[j].0 != es[i - 1].0
  {
    assert es[m..i] == es[m..i - 1] + [es[i - 1]];
    KeysAppend(es[m..i - 1], [es[i - 1]]);
    KeysSingle(es[i - 1]);
  }

  /** One step of the walk over a member that is not inlined: it writes its own key and nothing else. */
  lemma PlainStep(obj: Json, i: nat, cat: Catalog, rank: map<string, nat>, bound: nat, k: string)
    requires obj.JObj? && 0 < i <= |obj.entries|
    requires WellRanked(cat, rank) && Below(Targets(obj), cat, rank, bound)
    requires !Inlines(obj, i - 1, cat)
    ensures Keys(Walk(obj, i, cat, rank, bound)) == Keys(Walk(obj, i - 1, cat, rank, bound)) + {obj.entries[i - 1].0}
    ensures Lookup(Walk(obj, i, cat, rank, bound), k) ==
      if k == obj.entries[i - 1].0 then Some(MemberValue(obj, i - 1, cat, rank, bound))
      else Lookup(Walk(obj, i - 1, cat, rank, bound), k)
  {
    PlainContribution(obj, i - 1, cat, rank, bound);
    WalkStep(obj, i, cat, rank, bound, k);
  }

  /**
    An object none of whose members is inlined keeps its key order; a member
    stays under its key with the value `MemberValue` gives it: `title` and
    `description` as they are, a relative `$ref` to a missing or falsy file as
    it is, and every other value resolved.
   */
  lemma ResolvePlainObject(v: Json, cat: Catalog, rank: map<string, nat>, bound: nat)
    requires WellRanked(cat, rank) && Below(Targets(v), cat, rank, bound)
    requires v.JObj? && UniqueKeys(v.entries)
    requires forall j :: 0 <= j < |v.entries| ==> !Inlines(v, j, cat)
    ensures Resolve(v, cat, rank, bound).JObj?
    ensures |Resolve(v, cat, rank, bound).entries| == |v.entries|
    ensures forall j :: 0 <= j < |v.entries| ==>
      Resolve(v, cat, rank, bound).entries[j] == (v.entries[j].0, MemberValue(v, j, cat, rank, bound))
  {
    WalkPlain(v, |v.entries|, cat, rank, bound);
  }

  /**
    A relative `$ref` whose file is missing from the catalog (or falsy there)
    stays in place with its value; every other member is kept in order, walked
    unless it is a `title` or `description`.
   */
  lemma MissingRefKept(v: Json, p: nat, cat: Catalog, rank: map<string, nat>, bound: nat)
    requires WellRanked(cat, rank) && Below(Targets(v), cat, rank, bound)
    requires v.JObj? && UniqueKeys(v.entries) && p < |v.entries|
    requires v.entries[p].0 == "$ref" && RefFile(v.entries[p].1).Some?
    requires !Found(cat, RefFile(v.entries[p].1).value)
    ensures Resolve(v, cat, rank, bound).JObj?
    ensures |Resolve(v, cat, rank, bound).entries| == |v.entries|
    ensures Resolve(v, cat, rank, bound).entries[p] == v.entries[p]
    ensures forall j :: 0 <= j < |v.entries| && j != p ==>
      if IsAnnotation(v.entries[j].0) then Resolve(v, cat, rank, bound).entries[j] == v.entries[j]
      else
        && Below(Targets(v.entries[j].1), cat, rank, bound)
        && Resolve(v, cat, rank, bound).entries[j] == (v.entries[j].0, Resolve(v.entries[j].1, cat, rank, bound))
  {
    var es := v.entries;
    forall j | 0 <= j < |es| ensures !Inlines(v, j, cat) {
      if j != p {
        assert es[j].0 != es[p].0;
      }
    }
    ResolvePlainObject(v, cat, rank, bound);
    forall j | 0 <= j < |es| && j != p
      ensures Below(Targets(es[j].1), cat, rank, bound) || IsAnnotation(es[j].0)
    {
      assert es[j].0 != es[p].0;
      MemberTargetsIncluded(v, |es|, j);
    }
  }

  /** The walk up to and including an inlined `$ref` at position `p`. */
  lemma RefNodeHead(obj: Json, p: nat, cat: Catalog, rank: map<string, nat>, bound: nat)
    requires WellRanked(cat, rank) && Below(Targets(obj), cat, rank, bound)
    requires obj.JObj? && UniqueKeys(obj.entries) && p < |obj.entries|
    requires Inlines(obj, p, cat)
    ensures var w := Walk(obj, p + 1, cat, rank, bound);
      var t := Inlined(RefFile(obj.entries[p].1).value, cat, rank);
      && Keys(w) == Keys(obj.entries[..p]) + Keys(t)
      && (forall k :: k in Keys(t) ==> Lookup(w, k) == Lookup(t, k))
      && (forall j :: 0 <= j < p && obj.entries[j].0 !in Keys(t) ==>
            Lookup(w, obj.entries[j].0) == Some(MemberValue(obj, j, cat, rank, bound)))
  {
    var es := obj.entries;
    var t := Inlined(RefFile(es[p].1).value, cat, rank);
    var w := Walk(obj, p, cat, rank, bound);
    WalkBeforeRef(obj, p, cat, rank, bound);
    assert Contribution(obj, p, cat, rank, bound) == t;
    forall k ensures Lookup(Walk(obj, p + 1, cat, rank, bound), k) ==
      if k in Keys(t) then Lookup(t, k) else Lookup(w, k)
    {
      WalkStep(obj, p + 1, cat, rank, bound, k);
    }
    WalkStep(obj, p + 1, cat, rank, bound, "$ref");
  }

  /** Before the one `$ref` member, nothing is inlined: each earlier member holds its own value. */
  lemma WalkBeforeRef(obj: Json, p: nat, cat: Catalog, rank: map<string, nat>, bound: nat)
    requires WellRanked(cat, rank) && Below(Targets(obj), cat, rank, bound)
    requires obj.JObj? && UniqueKeys(obj.entries) && p < |obj.entries|
    requires Inlines(obj, p, cat)
    ensures Keys(Walk(obj, p, cat, rank, bound)) == Keys(obj.entries[..p])
    ensures forall j :: 0 <= j < p ==>
      Lookup(Walk(obj, p, cat, rank, bound), obj.entries[j].0) == Some(MemberValue(obj, j, cat, rank, bound))
  {
    var es := obj.entries;
    forall j | 0 <= j < p ensures !Inlines(obj, j, cat) {
      UniqueElsewhere(es, j, p, p + 1);
      KeysSingle(es[p]);
      assert es[p..p + 1] == [es[p]];
    }
    WalkPlain(obj, p, cat, rank, bound);
    var w := Walk(obj, p, cat, rank, bound);
    forall k ensures k in Keys(w) <==> k in Keys(es[..p]) {
      KeysSlice(es, 0, p, k);
      if k in Keys(w) {
        var j :| 0 <= j < |w| && w[j].0 == k;
        assert es[j].0 == k;
      } else {
        forall j | 0 <= j < p ensures es[j].0 != k {
          assert w[j].0 == es[j].0;
        }
      }
    }
    WalkUnique(obj, p, cat, rank, bound);
    forall j | 0 <= j < p ensures Lookup(w, es[j].0) == Some(MemberValue(obj, j, cat, rank, bound)) {
      LookupAt(w, j);
    }
  }

  /** The keys of an object: those before position `p`, the one at `p`, and those after it. */
  lemma KeysAround(es: Entries, p: nat)
    requires UniqueKeys(es) && p < |es|
    ensures Keys(es) - {es[p].0} == Keys(es[..p]) + Keys(es[p + 1..])
    ensures es[p].0 !in Keys(es[..p]) && es[p].0 !in Keys(es[p + 1..])
  {
    assert es == es[..p] + [es[p]] + es[p + 1..];
    KeysAppend(es[..p] + [es[p]], es[p + 1..]);
    KeysAppend(es[..p], [es[p]]);
    KeysSingle(es[p]);
    UniqueElsewhere(es, p, 0, p);
    UniqueElsewhere(es, p, p + 1, |es|);
    assert es[0..p] == es[..p];
    assert es[p + 1..|es|] == es[p + 1..];
  }

  /**
    The merge around an inlined `"$ref": "./X"` at position `p` is positional:
    members after `$ref` override the inlined members of X, members before it
    are overridden by them and survive only where X has no such key, and
    `$ref` itself is dropped (it can only come back from X's own content).
    X's top-level `$schema` never reaches the result.
   */
  lemma RefNodeMerge(obj: Json, p: nat, cat: Catalog, rank: map<string, nat>, bound: nat)
    requires WellRanked(cat, rank) && Below(Targets(obj), cat, rank, bound)
    requires obj.JObj? && UniqueKeys(obj.entries) && p < |obj.entries|
    requires Inlines(obj, p, cat)
    ensures var r := Resolve(obj, cat, rank, bound).entries;
      var t := Inlined(RefFile(obj.entries[p].1).value, cat, rank);
      && (forall j :: p < j < |obj.entries| ==>
            Lookup(r, obj.entries[j].0) == Some(MemberValue(obj, j, cat, rank, bound)))
      && (forall k :: k in Keys(t) && k !in Keys(obj.entries[p + 1..]) ==> Lookup(r, k) == Lookup(t, k))
      && (forall j :: 0 <= j < p && obj.entries[j].0 !in Keys(t) ==>
            Lookup(r, obj.entries[j].0) == Some(MemberValue(obj, j, cat, rank, bound)))
      && Keys(r) == (Keys(obj.entries) - {"$ref"}) + Keys(t)
      && ("$ref" in Keys(r) <==> "$ref" in Keys(t))
      && ("$schema" in Keys(r) <==> "$schema" in Keys(obj.entries))
  {
    RefNodeLookups(obj, p, cat, rank, bound);
    RefNodeKeys(obj, p, cat, rank, bound);
  }

  /** Only one member of a unique-key object is `$ref`, so nothing after an inlined one is inlined. */
  lemma AfterRefPlain(obj: Json, p: nat, cat: Catalog)
    requires obj.JObj? && UniqueKeys(obj.entries) && p < |obj.entries|
    requires Inlines(obj, p, cat)
    ensures forall j :: p < j < |obj.entries| ==> !Inlines(obj, j, cat)
  {
    var es := obj.entries;
    forall j | p < j < |es| ensures !Inlines(obj, j, cat) {
      UniqueElsewhere(es, p, j, j + 1);
      KeysSingle(es[j]);
      assert es[j..j + 1] == [es[j]];
    }
  }

  /** The values `RefNodeMerge` reads back: later siblings, then the target, then earlier siblings. */
  lemma RefNodeLookups(obj: Json, p: nat, cat: Catalog, rank: map<string, nat>, bound: nat)
    requires WellRanked(cat, rank) && Below(Targets(obj), cat, rank, bound)
    requires obj.JObj? && UniqueKeys(obj.entries) && p < |obj.entries|
    requires Inlines(obj, p, cat)
    ensures var r := Resolve(obj, cat, rank, bound).entries;
      var t := Inlined(RefFile(obj.entries[p].1).value, cat, rank);
      && (forall j :: p < j < |obj.entries| ==>
            Lookup(r, obj.entries[j].0) == Some(MemberValue(obj, j, cat, rank, bound)))
      && (forall k :: k in Keys(t) && k !in Keys(obj.entries[p + 1..]) ==> Lookup(r, k) == Lookup(t, k))
      && (forall j :: 0 <= j < p && obj.entries[j].0 !in Keys(t) ==>
            Lookup(r, obj.entries[j].0) == Some(MemberValue(obj, j, cat, rank, bound)))
  {
    var es := obj.entries;
    var n := |es|;
    AfterRefPlain(obj, p, cat);
    RefNodeHead(obj, p, cat, rank, bound);
    WalkTailLookup(obj, p + 1, n, cat, rank, bound);
    assert es[p + 1..n] == es[p + 1..];
    forall j | 0 <= j < p ensures es[j].0 !in Keys(es[p + 1..]) {
      UniqueElsewhere(es, j, p + 1, n);
    }
  }

  /** The key set `RefNodeMerge` states, and where `$ref` and `$schema` can come from. */
  lemma RefNodeKeys(obj: Json, p: nat, cat: Catalog, rank: map<string, nat>, bound: nat)
    requires WellRanked(cat, rank) && Below(Targets(obj), cat, rank, bound)
    requires obj.JObj? && UniqueKeys(obj.entries) && p < |obj.entries|
    requires Inlines(obj, p, cat)
    ensures var r := Resolve(obj, cat, rank, bound).entries;
      var t := Inlined(RefFile(obj.entries[p].1).value, cat, rank);
      && Keys(r) == (Keys(obj.entries) - {"$ref"}) + Keys(t)
      && ("$ref" in Keys(r) <==> "$ref" in Keys(t))
      && ("$schema" in Keys(r) <==> "$schema" in Keys(obj.entries))
  {
    var es := obj.entries;
    var n := |es|;
    KeysAround(es, p);
    AfterRefPlain(obj, p, cat);
    RefNodeHead(obj, p, cat, rank, bound);
    WalkTailKeys(obj, p + 1, n, cat, rank, bound);
    assert es[p + 1..n] == es[p + 1..];
    InlinedNoSchema(RefFile(es[p].1).value, cat, rank);
  }

  // ---------------------------------------------------------------------
  // The inlined content never declares a dialect

  /** Resolving an object whose members have no `$schema` key adds none. */
  lemma {:induction false} WalkNoSchema(obj: Json, i: nat, cat: Catalog, rank: map<string, nat>, bound: nat)
    requires obj.JObj? && i <= |obj.entries|
    requires WellRanked(cat, rank) && Below(Targets(obj), cat, rank, bound)
    requires "$schema" !in Keys(obj.entries)
    ensures "$schema" !in Keys(Walk(obj, i, cat, rank, bound))
    decreases bound, i
  {
    if i > 0 {
      WalkNoSchema(obj, i - 1, cat, rank, bound);
      WalkStep(obj, i, cat, rank, bound, "$schema");
      if Inlines(obj, i - 1, cat) {
        MemberTargetsIncluded(obj, |obj.entries|, i - 1);
        InlinedNoSchema(RefFile(obj.entries[i - 1].1).value, cat, rank);
      } else {
        PlainContribution(obj, i - 1, cat, rank, bound);
        assert obj.entries[i - 1].0 in Keys(obj.entries);
      }
    }
  }

  /** The members a catalog file contributes never include `$schema`, at any depth of inlining. */
  lemma {:induction false} InlinedNoSchema(f: string, cat: Catalog, rank: map<string, nat>)
    requires WellRanked(cat, rank) && Found(cat, f)
    ensures "$schema" !in Keys(Inlined(f, cat, rank))
    decreases rank[f], |Content(cat[f])| + 1
  {
    RemoveKeys(Spread(cat[f]), "$schema");
    WalkNoSchema(JObj(Content(cat[f])), |Content(cat[f])|, cat, rank, rank[f]);
  }

  // ---------------------------------------------------------------------
  // Nothing to inline: the document comes back unchanged

  /**
    A well-formed document in which no relative `$ref` the walk reaches names
    a present, truthy catalog file resolves to itself, key order included.
   */
  lemma {:induction false} FlatUnchanged(v: Json, cat: Catalog, rank: map<string, nat>, bound: nat)
    requires WellRanked(cat, rank) && WellFormed(v) && Flat(v, cat)
    ensures Resolve(v, cat, rank, bound) == v
    decreases bound, v, 2
  {
    match v
    case JArr(items) =>
      ItemsFlatUnchanged(v, |items|, cat, rank, bound);
      assert items[..|items|] == items;
    case JObj(members) =>
      WalkFlatUnchanged(v, |members|, cat, rank, bound);
      assert members[..|members|] == members;
    case _ =>
  }

  lemma {:induction false} ItemsFlatUnchanged(arr: Json, i: nat, cat: Catalog, rank: map<string, nat>, bound: nat)
    requires arr.JArr? && i <= |arr.items|
    requires WellRanked(cat, rank) && WellFormed(arr) && Flat(arr, cat)
    ensures ResolveItems(arr, i, cat, rank, bound) == arr.items[..i]
    decreases bound, arr, 1, i
  {
    if i > 0 {
      ItemsFlatUnchanged(arr, i - 1, cat, rank, bound);
      ItemTargetsIncluded(arr, |arr.items|, i - 1);
      FlatUnchanged(arr.items[i - 1], cat, rank, bound);
      assert arr.items[..i] == arr.items[..i - 1] + [arr.items[i - 1]];
    }
  }

  lemma {:induction false} WalkFlatUnchanged(obj: Json, i: nat, cat: Catalog, rank: map<string, nat>, bound: nat)
    requires obj.JObj? && i <= |obj.entries|
    requires WellRanked(cat, rank) && WellFormed(obj) && Flat(obj, cat)
    ensures Walk(obj, i, cat, rank, bound) == obj.entries[..i]
    decreases bound, obj, 1, i
  {
    if i > 0 {
      var es := obj.entries;
      WalkFlatUnchanged(obj, i - 1, cat, rank, bound);
      FlatMemberValue(obj, i - 1, cat, rank, bound);
      AppendFresh(es, i);
    }
  }

  /** Each member of a well-formed object with nothing to inline contributes itself, unchanged. */
  lemma {:induction false} FlatMemberValue(obj: Json, j: nat, cat: Catalog, rank: map<string, nat>, bound: nat)
    requires obj.JObj? && j < |obj.entries|
    requires WellRanked(cat, rank) && WellFormed(obj) && Flat(obj, cat)
    ensures Contribution(obj, j, cat, rank, bound) == [obj.entries[j]]
    decreases bound, obj, 0
  {
    var (k, x) := obj.entries[j];
    MemberTargetsIncluded(obj, |obj.entries|, j);
    assert !Inlines(obj, j, cat);
    if !(IsAnnotation(k) || (k == "$ref" && RefFile(x).Some?)) {
      FlatUnchanged(x, cat, rank, bound);
    }
  }

  /** Writing member `i - 1` of a unique-key list after its predecessors appends it. */
  lemma AppendFresh(es: Entries, i: nat)
    requires UniqueKeys(es) && 0 < i <= |es|
    ensures Assign(es[..i - 1], [es[i - 1]]) == es[..i]
  {
    AssignSingle(es[..i - 1], es[i - 1]);
    UniqueElsewhere(es, i - 1, 0, i - 1);
    assert es[0..i - 1] == es[..i - 1];
    PutFresh(es[..i - 1], es[i - 1].0, es[i - 1].1);
    assert es[..i] == es[..i - 1] + [es[i - 1]];
  }

  /** A walk with no `$ref` key at all looks up no file. */
  lemma {:induction false} NoRefNoTargets(v: Json)
    requires !HasKey(v, "$ref")
    ensures Targets(v) == {}
    decreases v
  {
    match v
    case JArr(items) =>
      forall f ensures f !in Targets(v) {
        ItemsTargetsChar(v, |items|, f);
        forall j | 0 <= j < |items| ensures f !in Targets(items[j]) {
          NoRefNoTargets(items[j]);
        }
      }
    case JObj(members) =>
      forall f ensures f !in Targets(v) {
        MembersTargetsChar(v, |members|, f);
        forall j | 0 <= j < |members| ensures f !in MemberTargets(members[j].0, members[j].1) {
          if !IsAnnotation(members[j].0) {
            NoRefNoTargets(members[j].1);
          }
        }
      }
    case _ =>
  }

  /** A document with no `$ref` key anywhere resolves to itself, whatever the catalog holds. */
  lemma NoRefUnchanged(v: Json, cat: Catalog, rank: map<string, nat>, bound: nat)
    requires WellRanked(cat, rank) && WellFormed(v) && !HasKey(v, "$ref")
    ensures Targets(v) == {} && Resolve(v, cat, rank, bound) == v
  {
    NoRefNoTargets(v);
    FlatUnchanged(v, cat, rank, bound);
  }

  // ---------------------------------------------------------------------
  // The result has nothing left to inline

  /** No file member `k: x` would make the walk look up is found (present and truthy). */
  predicate FlatMember(k: string, x: Json, cat: Catalog)
  {
    forall f :: f in MemberTargets(k, x) ==> !Found(cat, f)
  }

  predicate FlatMembers(es: Entries, cat: Catalog)
  {
    forall e :: e in es ==> FlatMember(e.0, e.1, cat)
  }

  lemma FlatMembersObject(es: Entries, cat: Catalog)
    requires FlatMembers(es, cat)
    ensures Flat(JObj(es), cat)
  {
    forall f | f in Targets(JObj(es)) ensures !Found(cat, f) {
      MembersTargetsChar(JObj(es), |es|, f);
      var j :| 0 <= j < |es| && f in MemberTargets(es[j].0, es[j].1);
      assert es[j] in es;
    }
  }

  /**
    Resolution leaves no relative `$ref` the walk would follow to a present,
    truthy catalog file: all that is left is under `title`/`description` or
    names a file that is missing or falsy.
   */
  lemma {:induction false} ResolveIsFlat(v: Json, cat: Catalog, rank: map<string, nat>, bound: nat)
    requires WellRanked(cat, rank) && Below(Targets(v), cat, rank, bound)
    ensures Flat(Resolve(v, cat, rank, bound), cat)
    decreases bound, v, 2
  {
    match v
    case JArr(items) =>
      var r := Resolve(v, cat, rank, bound);
      ResolveItemsSpec(v, |items|, cat, rank, bound);
      forall f | f in Targets(r) ensures !Found(cat, f) {
        ItemsTargetsChar(r, |items|, f);
        var j :| 0 <= j < |items| && f in Targets(r.items[j]);
        ResolveIsFlat(items[j], cat, rank, bound);
      }
    case JObj(members) =>
      WalkIsFlat(v, |members|, cat, rank, bound);
      FlatMembersObject(Walk(v, |members|, cat, rank, bound), cat);
    case _ =>
  }

  lemma {:induction false} WalkIsFlat(obj: Json, i: nat, cat: Catalog, rank: map<string, nat>, bound: nat)
    requires obj.JObj? && i <= |obj.entries|
    requires WellRanked(cat, rank) && Below(Targets(obj), cat, rank, bound)
    ensures FlatMembers(Walk(obj, i, cat, rank, bound), cat)
    decreases bound, obj, 1, i
  {
    if i > 0 {
      var w, c := Walk(obj, i - 1, cat, rank, bound), Contribution(obj, i - 1, cat, rank, bound);
      WalkIsFlat(obj, i - 1, cat, rank, bound);
      ContributionIsFlat(obj, i - 1, cat, rank, bound);
      AssignMembers(w, c);
    }
  }

  lemma {:induction false} ContributionIsFlat(obj: Json, j: nat, cat: Catalog, rank: map<string, nat>, bound: nat)
    requires obj.JObj? && j < |obj.entries|
    requires WellRanked(cat, rank) && Below(Targets(obj), cat, rank, bound)
    ensures FlatMembers(Contribution(obj, j, cat, rank, bound), cat)
    decreases bound, obj, 0, 1
  {
    var (k, x) := obj.entries[j];
    MemberTargetsIncluded(obj, |obj.entries|, j);
    if Inlines(obj, j, cat) {
      InlinedIsFlat(RefFile(x).value, cat, rank);
    } else if IsAnnotation(k) || (k == "$ref" && RefFile(x).Some?) {
      assert FlatMember(k, x, cat);
    } else {
      var r := Resolve(x, cat, rank, bound);
      ResolveIsFlat(x, cat, rank, bound);
      if k == "$ref" {
        assert RefFile(x).None?;
        assert RefFile(r).None? by {
          match x
          case JArr(_) => assert r.JArr?;
          case JObj(_) => assert r.JObj?;
          case _ => assert r == x;
        }
      }
      assert MemberTargets(k, r) == Targets(r);
      assert FlatMember(k, r, cat);
    }
  }

  lemma {:induction false} InlinedIsFlat(f: string, cat: Catalog, rank: map<string, nat>)
    requires WellRanked(cat, rank) && Found(cat, f)
    ensures FlatMembers(Inlined(f, cat, rank), cat)
    decreases rank[f], JObj(Content(cat[f])), 3
  {
    WalkIsFlat(JObj(Content(cat[f])), |Content(cat[f])|, cat, rank, rank[f]);
  }

  // ---------------------------------------------------------------------
  // Unique keys are kept

  predicate WellFormedMembers(es: Entries)
  {
    forall e :: e in es ==> WellFormed(e.1)
  }

  lemma ContentWellFormed(doc: Json)
    requires WellFormed(doc)
    ensures WellFormed(JObj(Content(doc)))
  {
    SpreadWellFormed(doc);
    RemoveUnique(Spread(doc), "$schema");
    RemoveMembers(Spread(doc), "$schema");
    var c := Content(doc);
    forall i | 0 <= i < |c| ensures WellFormed(c[i].1) {
      assert c[i] in Spread(doc);
    }
  }

  /** Resolving a well-formed document against a well-formed catalog yields a well-formed document. */
  lemma {:induction false} ResolveWellFormed(v: Json, cat: Catalog, rank: map<string, nat>, bound: nat)
    requires WellRanked(cat, rank) && Below(Targets(v), cat, rank, bound)
    requires CatalogWellFormed(cat) && WellFormed(v)
    ensures WellFormed(Resolve(v, cat, rank, bound))
    decreases bound, v, 2
  {
    match v
    case JArr(items) =>
      var r := Resolve(v, cat, rank, bound);
      ResolveItemsSpec(v, |items|, cat, rank, bound);
      forall j | 0 <= j < |items| ensures WellFormed(r.items[j]) {
        ResolveWellFormed(items[j], cat, rank, bound);
      }
    case JObj(members) =>
      var w := Walk(v, |members|, cat, rank, bound);
      WalkWellFormed(v, |members|, cat, rank, bound);
      WalkUnique(v, |members|, cat, rank, bound);
      forall j | 0 <= j < |w| ensures WellFormed(w[j].1) {
        assert w[j] in w;
      }
    case _ =>
  }

  lemma {:induction false} WalkWellFormed(obj: Json, i: nat, cat: Catalog, rank: map<string, nat>, bound: nat)
    requires obj.JObj? && i <= |obj.entries|
    requires WellRanked(cat, rank) && Below(Targets(obj), cat, rank, bound)
    requires CatalogWellFormed(cat) && WellFormed(obj)
    ensures WellFormedMembers(Walk(obj, i, cat, rank, bound))
    decreases bound, obj, 1, i
  {
    if i > 0 {
      var w, c := Walk(obj, i - 1, cat, rank, bound), Contribution(obj, i - 1, cat, rank, bound);
      WalkWellFormed(obj, i - 1, cat, rank, bound);
      ContributionWellFormed(obj, i - 1, cat, rank, bound);
      AssignMembers(w, c);
    }
  }

  lemma {:induction false} ContributionWellFormed(obj: Json, j: nat, cat: Catalog, rank: map<string, nat>, bound: nat)
    requires obj.JObj? && j < |obj.entries|
    requires WellRanked(cat, rank) && Below(Targets(obj), cat, rank, bound)
    requires CatalogWellFormed(cat) && WellFormed(obj)
    ensures WellFormedMembers(Contribution(obj, j, cat, rank, bound))
    decreases bound, obj, 0, 1
  {
    var (k, x) := obj.entries[j];
    MemberTargetsIncluded(obj, |obj.entries|, j);
    if Inlines(obj, j, cat) {
      InlinedWellFormed(RefFile(x).value, cat, rank);
    } else if !(IsAnnotation(k) || (k == "$ref" && RefFile(x).Some?)) {
      ResolveWellFormed(x, cat, rank, bound);
    }
  }

  lemma {:induction false} InlinedWellFormed(f: string, cat: Catalog, rank: map<string, nat>)
    requires WellRanked(cat, rank) && Found(cat, f) && CatalogWellFormed(cat)
    ensures WellFormedMembers(Inlined(f, cat, rank))
    decreases rank[f], JObj(Content(cat[f])), 3
  {
    ContentWellFormed(cat[f]);
    WalkWellFormed(JObj(Content(cat[f])), |Content(cat[f])|, cat, rank, rank[f]);
  }

  // ---------------------------------------------------------------------
  // The ghost rank and bound do not change the result

  /**
    The rank and bound only justify termination: any two that admit a
    document resolve it to the same value, so the resolver is a function of
    the document and the catalog alone.
   */
  lemma {:induction false} RankIrrelevant(v: Json, cat: Catalog, r1: map<string, nat>, b1: nat, r2: map<string, nat>, b2: nat)
    requires WellRanked(cat, r1) && Below(Targets(v), cat, r1, b1)
    requires WellRanked(cat, r2) && Below(Targets(v), cat, r2, b2)
    ensures Resolve(v, cat, r1, b1) == Resolve(v, cat, r2, b2)
    decreases b1, v, 2
  {
    match v
    case JArr(items) => ItemsRankIrrelevant(v, |items|, cat, r1, b1, r2, b2);
    case JObj(members) => WalkRankIrrelevant(v, |members|, cat, r1, b1, r2, b2);
    case _ =>
  }

  lemma {:induction false} ItemsRankIrrelevant(arr: Json, i: nat, cat: Catalog, r1: map<string, nat>, b1: nat, r2: map<string, nat>, b2: nat)
    requires arr.JArr? && i <= |arr.items|
    requires WellRanked(cat, r1) && Below(Targets(arr), cat, r1, b1)
    requires WellRanked(cat, r2) && Below(Targets(arr), cat, r2, b2)
    ensures ResolveItems(arr, i, cat, r1, b1) == ResolveItems(arr, i, cat, r2, b2)
    decreases b1, arr, 1, i
  {
    if i > 0 {
      ItemsRankIrrelevant(arr, i - 1, cat, r1, b1, r2, b2);
      ItemTargetsIncluded(arr, |arr.items|, i - 1);
      RankIrrelevant(arr.items[i - 1], cat, r1, b1, r2, b2);
    }
  }

  lemma {:induction false} WalkRankIrrelevant(obj: Json, i: nat, cat: Catalog, r1: map<string, nat>, b1: nat, r2: map<string, nat>, b2: nat)
    requires obj.JObj? && i <= |obj.entries|
    requires WellRanked(cat, r1) && Below(Targets(obj), cat, r1, b1)
    requires WellRanked(cat, r2) && Below(Targets(obj), cat, r2, b2)
    ensures Walk(obj, i, cat, r1, b1) == Walk(obj, i, cat, r2, b2)
    decreases b1, obj, 1, i
  {
    if i > 0 {
      WalkRankIrrelevant(obj, i - 1, cat, r1, b1, r2, b2);
      ContributionRankIrrelevant(obj, i - 1, cat, r1, b1, r2, b2);
    }
  }

  lemma {:induction false} ContributionRankIrrelevant(obj: Json, j: nat, cat: Catalog, r1: map<string, nat>, b1: nat, r2: map<string, nat>, b2: nat)
    requires obj.JObj? && j < |obj.entries|
    requires WellRanked(cat, r1) && Below(Targets(obj), cat, r1, b1)
    requires WellRanked(cat, r2) && Below(Targets(obj), cat, r2, b2)
    ensures Contribution(obj, j, cat, r1, b1) == Contribution(obj, j, cat, r2, b2)
    decreases b1, obj, 0, 1
  {
    var (k, x) := obj.entries[j];
    MemberTargetsIncluded(obj, |obj.entries|, j);
    if Inlines(obj, j, cat) {
      InlinedRankIrrelevant(RefFile(x).value, cat, r1, r2);
    } else if !(IsAnnotation(k) || (k == "$ref" && RefFile(x).Some?)) {
      RankIrrelevant(x, cat, r1, b1, r2, b2);
    }
  }

  lemma {:induction false} InlinedRankIrrelevant(f: string, cat: Catalog, r1: map<string, nat>, r2: map<string, nat>)
    requires WellRanked(cat, r1) && WellRanked(cat, r2) && Found(cat, f)
    ensures Inlined(f, cat, r1) == Inlined(f, cat, r2)
    decreases r1[f], JObj(Content(cat[f])), 3
  {
    WalkRankIrrelevant(JObj(Content(cat[f])), |Content(cat[f])|, cat, r1, r1[f], r2, r2[f]);
  }

  /** The batch run's output does not depend on which rank admits the catalog. */
  lemma ResolveAllRankIrrelevant(cat: Catalog, r1: map<string, nat>, r2: map<string, nat>)
    requires WellRanked(cat, r1) && WellRanked(cat, r2)
    ensures ResolveAll(cat, r1) == ResolveAll(cat, r2)
  {
    forall f | f in cat ensures ResolveAll(cat, r1)[f] == ResolveAll(cat, r2)[f] {
      BelowTop(Targets(cat[f]), cat, r1);
      BelowTop(Targets(cat[f]), cat, r2);
      RankIrrelevant(cat[f], cat, r1, Top(cat, r1), r2, Top(cat, r2));
    }
  }

  // ---------------------------------------------------------------------
  // Idempotence and the batch run

  /**
    Resolving an already resolved document changes nothing: the first pass
    leaves nothing to inline.
   */
  lemma Idempotent(v: Json, cat: Catalog, rank: map<string, nat>, bound: nat)
    requires WellRanked(cat, rank) && Below(Targets(v), cat, rank, bound)
    requires CatalogWellFormed(cat) && WellFormed(v)
    ensures var r := Resolve(v, cat, rank, bound);
      Flat(r, cat) && Resolve(r, cat, rank, bound) == r
  {
    var r := Resolve(v, cat, rank, bound);
    ResolveIsFlat(v, cat, rank, bound);
    ResolveWellFormed(v, cat, rank, bound);
    FlatUnchanged(r, cat, rank, bound);
  }

  /** Every file the batch run writes has nothing left to inline. */
  lemma ResolveAllFlat(cat: Catalog, rank: map<string, nat>)
    requires WellRanked(cat, rank)
    ensures forall f :: f in ResolveAll(cat, rank) ==> Flat(ResolveAll(cat, rank)[f], cat)
  {
    forall f | f in cat ensures Flat(ResolveAll(cat, rank)[f], cat) {
      BelowTop(Targets(cat[f]), cat, rank);
      ResolveIsFlat(cat[f], cat, rank, Top(cat, rank));
    }
  }

  /** A catalog file with nothing to inline is written out exactly as it was read. */
  lemma ResolveAllKeepsFlat(cat: Catalog, rank: map<string, nat>, f: string)
    requires WellRanked(cat, rank) && f in cat && WellFormed(cat[f]) && Flat(cat[f], cat)
    ensures ResolveAll(cat, rank)[f] == cat[f]
  {
    FlatUnchanged(cat[f], cat, rank, Top(cat, rank));
  }
}

=== FILE: SchemaResolver.dfy ===
/**
  The load-time `$ref` resolver of `src/utils/schemaResolver.ts`.

  `resolveSchemaReferences(schema)` knows a single target, the imported person
  schema, matched by the exact string `./person.schema.json`. A node carrying
  that reference becomes `{...personSchema, ...siblings}`: the person schema's
  members as they are (neither resolved further nor stripped of `$schema`)
  with every sibling of `$ref` written over them, wherever it stood. A node
  carrying any other truthy `$ref` is returned as it is. Every other object is
  copied key by key with each value resolved, and arrays item by item.

  The imported person schema is the parameter `person`.
 */
module SchemaResolver {
  import opened Json

  const PersonRef: string := "./person.schema.json"

  /** `schema.$ref` is truthy. */
  predicate HasTruthyRef(es: Entries)
  {
    var ref := Lookup(es, "$ref");
    ref.Some? && Truthy(ref.value)
  }

  /** `resolveSchemaReferences(v)` with `personSchema` bound to `person`. */
  function Resolve(v: Json, person: Json): Json
    decreases v, 2
  {
    match v
    case JArr(items) => JArr(ResolveItems(v, |items|, person))
    case JObj(members) =>
      if HasTruthyRef(members) then
        if Lookup(members, "$ref") == Some(JStr(PersonRef)) then
          JObj(Assign(Assign([], Spread(person)), Remove(members, "$ref")))
        else v
      else JObj(Copy(v, |members|, person))
    case _ => v
  }

  /** `schema.map(item => resolveSchemaReferences(item))`, on the first `i` items. */
  function ResolveItems(arr: Json, i: nat, person: Json): seq<Json>
    requires arr.JArr? && i <= |arr.items|
    decreases arr, 1, i
  {
    if i == 0 then [] else ResolveItems(arr, i - 1, person) + [Resolve(arr.items[i - 1], person)]
  }

  /** The object `resolved` after the loop has written the first `i` members of `obj`, each resolved. */
  function Copy(obj: Json, i: nat, person: Json): Entries
    requires obj.JObj? && i <= |obj.entries|
    decreases obj, 1, i
  {
    if i == 0 then []
    else Put(Copy(obj, i - 1, person), obj.entries[i - 1].0, Resolve(obj.entries[i - 1].1, person))
  }

  /** No object in the tree has a truthy `$ref`. */
  predicate NoTruthyRef(v: Json)
  {
    match v
    case JArr(items) => forall i :: 0 <= i < |items| ==> NoTruthyRef(items[i])
    case JObj(members) =>
      && !HasTruthyRef(members)
      && forall i :: 0 <= i < |members| ==> NoTruthyRef(members[i].1)
    case _ => true
  }

  // ---------------------------------------------------------------------
  // Scalars and arrays

  /** Anything that is not an object or an array comes back unchanged. */
  lemma ResolveScalar(v: Json, person: Json)
    requires IsScalar(v)
    ensures Resolve(v, person) == v
  {
  }

  lemma {:induction false} ResolveItemsSpec(arr: Json, i: nat, person: Json)
    requires arr.JArr? && i <= |arr.items|
    ensures |ResolveItems(arr, i, person)| == i
    ensures forall j :: 0 <= j < i ==> ResolveItems(arr, i, person)[j] == Resolve(arr.items[j], person)
  {
    if i > 0 {
      ResolveItemsSpec(arr, i - 1, person);
    }
  }

  /** An array resolves item by item, keeping its length and order. */
  lemma ResolveArray(v: Json, person: Json)
    requires v.JArr?
    ensures Resolve(v, person).JArr?
    ensures |Resolve(v, person).items| == |v.items|
    ensures forall j :: 0 <= j < |v.items| ==> Resolve(v, person).items[j] == Resolve(v.items[j], person)
  {
    ResolveItemsSpec(v, |v.items|, person);
  }

  // ---------------------------------------------------------------------
  // Objects

  /**
    A node whose `$ref` is `./person.schema.json` becomes the person schema's
    members overridden by the node's siblings of `$ref`, wherever they stood:
    a sibling keeps its own unresolved value, and every person key no sibling
    shadows keeps the person schema's unresolved value (`$schema` and any
    `$ref` inside the person schema included).
   */
  lemma PersonRefMerge(v: Json, person: Json)
    requires v.JObj? && UniqueKeys(v.entries) && WellFormed(person)
    requires Lookup(v.entries, "$ref") == Some(JStr(PersonRef))
    ensures Resolve(v, person).JObj?
    ensures var r := Resolve(v, person).entries;
      && UniqueKeys(r)
      && Keys(r) == Keys(Spread(person)) + (Keys(v.entries) - {"$ref"})
      && (forall k :: k in Keys(v.entries) && k != "$ref" ==> Lookup(r, k) == Lookup(v.entries, k))
      && (forall k :: k !in Keys(v.entries) - {"$ref"} ==> Lookup(r, k) == Lookup(Spread(person), k))
  {
    var es := v.entries;
    var sp := Spread(person);
    var siblings := Remove(es, "$ref");
    SpreadWellFormed(person);
    AssignFresh([], sp);
    assert Assign([], sp) == sp;
    RemoveUnique(es, "$ref");
    RemoveKeys(es, "$ref");
    AssignKeys(sp, siblings);
    AssignUnique(sp, siblings);
    var r := Resolve(v, person).entries;
    assert r == Assign(sp, siblings);
    forall k | k in Keys(es) && k != "$ref" ensures Lookup(r, k) == Lookup(es, k) {
      AssignLookup(sp, siblings, k);
      RemoveLookup(es, "$ref", k);
    }
    forall k | k !in Keys(es) - {"$ref"} ensures Lookup(r, k) == Lookup(sp, k) {
      AssignLookup(sp, siblings, k);
    }
  }

  /** The person schema's `$schema` survives inlining unless a sibling shadows it. */
  lemma PersonSchemaKept(v: Json, person: Json)
    requires v.JObj? && UniqueKeys(v.entries) && WellFormed(person)
    requires Lookup(v.entries, "$ref") == Some(JStr(PersonRef))
    requires "$schema" in Keys(Spread(person)) && "$schema" !in Keys(v.entries)
    ensures Resolve(v, person).JObj?
    ensures Lookup(Resolve(v, person).entries, "$schema") == Lookup(Spread(person), "$schema")
    ensures Lookup(Resolve(v, person).entries, "$schema").Some?
  {
    PersonRefMerge(v, person);
    LookupAbsent(Spread(person), "$schema");
  }

  /** Any other truthy `$ref` leaves the node as it is, siblings unresolved. */
  lemma OtherRefUntouched(v: Json, person: Json)
    requires v.JObj? && HasTruthyRef(v.entries)
    requires Lookup(v.entries, "$ref") != Some(JStr(PersonRef))
    ensures Resolve(v, person) == v
  {
  }

  lemma {:induction false} CopySpec(obj: Json, i: nat, person: Json)
    requires obj.JObj? && i <= |obj.entries| && UniqueKeys(obj.entries)
    ensures |Copy(obj, i, person)| == i
    ensures forall j :: 0 <= j < i ==>
      Copy(obj, i, person)[j] == (obj.entries[j].0, Resolve(obj.entries[j].1, person))
  {
    if i > 0 {
      var c := Copy(obj, i - 1, person);
      var k := obj.entries[i - 1].0;
      CopySpec(obj, i - 1, person);
      assert k !in Keys(c) by {
        forall j | 0 <= j < |c| ensures c[j].0 != k {
          assert c[j].0 == obj.entries[j].0;
        }
      }
      PutFresh(c, k, Resolve(obj.entries[i - 1].1, person));
    }
  }

  /**
    An object without a truthy `$ref` resolves to an object with the same key
    sequence, each value resolved.
   */
  lemma PlainObject(v: Json, person: Json)
    requires v.JObj? && UniqueKeys(v.entries) && !HasTruthyRef(v.entries)
    ensures Resolve(v, person).JObj?
    ensures |Resolve(v, person).entries| == |v.entries|
    ensures forall j :: 0 <= j < |v.entries| ==>
      Resolve(v, person).entries[j] == (v.entries[j].0, Resolve(v.entries[j].1, person))
  {
    CopySpec(v, |v.entries|, person);
  }

  /** A well-formed document with no truthy `$ref` anywhere resolves to itself. */
  lemma {:induction false} NoTruthyRefUnchanged(v: Json, person: Json)
    requires WellFormed(v) && NoTruthyRef(v)
    ensures Resolve(v, person) == v
    decreases v
  {
    match v
    case JArr(items) =>
      ResolveArray(v, person);
      forall j | 0 <= j < |items| ensures Resolve(v, person).items[j] == items[j] {
        NoTruthyRefUnchanged(items[j], person);
      }
    case JObj(members) =>
      PlainObject(v, person);
      forall j | 0 <= j < |members| ensures Resolve(v, person).entries[j] == members[j] {
        NoTruthyRefUnchanged(members[j].1, person);
      }
    case _ =>
  }

  lemma {:induction false} NoRefKeyNoTruthyRef(v: Json)
    requires !HasKey(v, "$ref")
    ensures NoTruthyRef(v)
    decreases v
  {
    match v
    case JArr(items) =>
      forall j | 0 <= j < |items| ensures NoTruthyRef(items[j]) {
        NoRefKeyNoTruthyRef(items[j]);
      }
    case JObj(members) =>
      assert "$ref" !in Keys(members);
      LookupAbsent(members, "$ref");
      forall j | 0 <= j < |members| ensures NoTruthyRef(members[j].1) {
        NoRefKeyNoTruthyRef(members[j].1);
      }
    case _ =>
  }

  /** A document with no `$ref` key anywhere resolves to itself. */
  lemma NoRefUnchanged(v: Json, person: Json)
    requires WellFormed(v) && !HasKey(v, "$ref")
    ensures Resolve(v, person) == v
  {
    NoRefKeyNoTruthyRef(v);
    NoTruthyRefUnchanged(v, person);
  }
}
